=== FILE: README.md ===
# AI medical SOAP-notes generator: job orchestration

This project models the server side of the SOAP-notes generator (`server.js`) in Dafny. The server:

- accepts an audio upload;
- creates a job record in an in-memory store;
- hands the audio to a transcription service;
- polls that service on a timer until the transcript is ready;
- asks a language model to turn the transcript into a SOAP note (Subjective, Objective, Assessment, Plan);
- reports every status change to the sockets watching the job.

A developer mode skips the upload. It reads a saved transcript and reports straight to the requesting socket.

The model is sequential. Every call to an external service becomes an outcome value passed in as a parameter:

| outcome value | what it stands for |
|---|---|
| `SubmitOutcome` | the audio upload and the transcript request |
| `PollReply` | a poll of the transcript resource |
| `GroqReply` | the chat-completion request |
| `ReadOutcome` | reading and parsing the saved transcript file |
| a `parse` function | `JSON.parse` |

The clock is a `now` parameter, and the generated job id is a parameter too.

Modules:

- `Common`: `Option`, JavaScript's `||` on strings, and `startsWith`.
- `Text`: the characters matched by JavaScript's `\s`, the speaker-label sanitiser, `trim`, and the decimal rendering of an index.
- `Transcripts`: the transcript record and the `forEach` loop that flattens utterances into numbered lines. The loop is a method proved against the function `Flatten`.
- `Generation`: `generateSOAPNoteGroq`. It covers input validation, the empty-transcript short circuit, and the classification of the reply into a transport error, a parse error or the parsed note.
- `Jobs`: the job record, the three kinds of socket event, and `updateJobStatus` as the pure step `ApplyUpdate`. A step yields the new store and the events emitted, in order. The module also defines the status trail of an event sequence.
- `Polling`: one firing of the poll timer (`PollStep`) and runs of consecutive polls (`PollChain`). It proves the order of statuses up to the terminal one.
- `Handlers`: the `/upload` route and the dev-mode request as step functions, plus the lemmas about their status trails and final events.
- `Server`: the class `JobServer`. It holds:
  - the store, as a `map`;
  - the room memberships, as a `set`;
  - a ghost log of every emitted event.

  Each handler is an imperative method that updates these fields. Its postcondition equates the new state with the step function of the same operation. Every method also preserves the class invariant `Valid`:
  - the store holds only generated (`job_`…) ids;
  - no terminal job keeps an armed timer, and an armed timer is 1000 or 5000 ms;
  - every joined room and every room-addressed event belongs to a registered job.

In three places the model follows behaviour a reader might not expect:

- `updateJobStatus` does not refuse to update a job that is already terminal (`Jobs.UpdateDoesNotGuardTerminal`).
- A job keeps its stale timer through `transcription_completed` and `generating_outputs`. Only a terminal update clears the timer.
- The generated note is never stored on the job record. It only travels in the `completed` events.

## Model

| member | source | states |
|---|---|---|
| Common.OrDefault | server.js:281 | `x \|\| d` on an optional string: a present non-empty value is returned, anything else gives `d`; the result is never empty when `d` is not |
| Text.Sanitize | server.js:105 | the result has only characters from `[a-zA-Z0-9\s_]`, is no longer than the input, and equals the input when the input has no other characters |
| Text.SanitizeChar | server.js:105 | one character is kept when it is in `[a-zA-Z0-9\s_]` and removed, not replaced, otherwise; with `SanitizeAppend` this fixes the result on every string |
| Text.SanitizeAppend | server.js:105 | the sanitiser distributes over concatenation, so it keeps the allowed characters in order |
| Text.SanitizeIdempotent | server.js:105 | sanitising a sanitised label changes nothing |
| Text.Trim | server.js:216 | `trim()` is empty exactly when the input is all whitespace; otherwise it neither starts nor ends with whitespace; it is the input with its leading whitespace run and a trailing all-whitespace part removed |
| Text.DecimalDigits | server.js:107 | the rendered index is a non-empty digit string without a leading zero, and has one digit exactly when the index is below 10 |
| Text.DecimalRoundTrip | server.js:107 | reading the rendered index back gives the index |
| Transcripts.SpeakerLabel | server.js:105 | the label is the sanitised speaker, or `Unknown` when the speaker is missing or empty; it contains only allowed characters and is a fixed point of the sanitiser |
| Transcripts.UtteranceText | server.js:106 | `u.text \|\| ''`: the text when present, the empty string otherwise |
| Transcripts.NumberedLine | server.js:107 | the line is `LineHead(i)`, then the speaker label, then `: `, then the utterance text, then a newline, each part at its exact position and nothing else in between |
| Transcripts.LineHead | server.js:107 | the head is `[Utterance `, the decimal digits of the index, then `] Speaker ` |
| Transcripts.Flatten | server.js:103-108 | the flattened text is empty exactly when there are no utterances |
| Transcripts.FlattenTranscript | server.js:103-108 | the accumulating loop computes exactly `Flatten` of the utterances |
| Transcripts.FlattenLineAt | server.js:103-108 | the line `[Utterance k] Speaker L: T` of utterance `k` follows the lines of utterances `0..k-1` in the text |
| Transcripts.FlattenPrefix | server.js:103-108 | the text of a prefix of the utterances is a prefix of the text of all of them |
| Generation.ContentText | server.js:216 | missing content reads as empty; present content gives exactly its `trim()`, which is empty exactly when the content is all whitespace; the text never starts or ends with whitespace |
| Generation.PrefixesDiffer | server.js:228-236 | a transport-error message and a parse-error message can never be confused |
| Generation.ClassifyReply | server.js:212-236 | a note exactly when the trimmed content is non-empty and parses; `Error generating SOAP note:` exactly for transport failures and empty content, followed by the thrown message, by `Groq API request failed: ` and the status text, or by `Groq returned empty content.`; `Failed to parse AI response as JSON:` plus the message exactly for malformed content |
| Generation.Generate | server.js:94-101 | no `utterances` array gives the unusable-data error with its details; empty utterances give the four empty sections; otherwise the reply's classification; a failure always carries a message |
| Generation.MissingSectionsAccepted | server.js:223-226 | a parsed reply missing section keys is still returned as the note |
| Generation.FailuresAreReported | server.js:268 | the caller's `soapNoteJson.error` test is true for every failure object, and for a note only when the parsed object has a non-empty `error` |
| Generation.GenerateSoapNote | server.js:92-237 | returns the classified result; the service is called (the request text exists) exactly when there are utterances, and then the text is the flattened transcript |
| Jobs.StatusKinds | server.js:60 | `completed` and the five `error_…` statuses are terminal; `received`, the upload and submission statuses, every `transcribing_<s>`, `transcription_completed` and `generating_outputs` are not; the poller applies the same test at line 242 |
| Jobs.NotTerminal | server.js:60 | a status whose first character is neither `c` nor `e` is not terminal |
| Jobs.DirectEvent | server.js:71-85 | with no record, `dev_completed`/`dev_error` become a socket result with `success` exactly for `dev_completed`; other statuses become a status update tagged `dev_<socket>` |
| Jobs.ApplyUpdate | server.js:52-89 | a registered job gets the status and `lastUpdated`, loses its timer exactly when the status is terminal, and nothing else in the store changes; its room gets the status event, then the final result exactly when the status is terminal; an unknown id changes nothing and emits one direct event when a socket is given, none otherwise |
| Jobs.UpdateFrame | server.js:54-65 | an update leaves every other record unchanged, addresses only registered rooms with their own id, and keeps every timer consistent with its status |
| Jobs.UpdateDoesNotGuardTerminal | server.js:54-61 | a `completed` job can still be moved to `error_polling`, with a second final result |
| Jobs.RoomTrail | server.js:58-61 | one room update contributes its status once, and a final result exactly when terminal |
| Jobs.UpdateTrail | server.js:58-61 | an update of a registered job adds its status once to the trail, and one final result exactly when the status is terminal |
| Polling.FinalStatus | server.js:268-279 | the status after generation is terminal: `error_generation` exactly when the result reports an error, `completed` exactly when it does not |
| Polling.GenerationData | server.js:268-279 | an error result sends its error and details and no results; any other result sends the transcript and note as results and no error |
| Polling.Announced | server.js:251-265 | the transcript is stored and the status becomes `generating_outputs`, the timer untouched and no other job changed; the room gets exactly the `transcription_completed` and `generating_outputs` updates with their messages |
| Polling.CompletedStep | server.js:249-279 | the job ends in the status after generation with the transcript stored and no timer, no other job changed; the room gets exactly the two announcements, the terminal update with its data, and the final result (note, or error) |
| Polling.PollFailed | server.js:280-292 | the job ends in the error status with no timer, no other job changed; the room gets exactly the error update and the final result with the message |
| Polling.StillTranscribing | server.js:284-288 | the job gets the in-progress status and a re-armed 5000 ms timer, no other job changed; the room gets exactly one status update |
| Polling.PollStep | server.js:240-293 | a missing or terminal job is left alone with no events; a thrown poll gives `error_polling` and a service error gives `error_transcription`, each with its message or default, as the exact new store and exact events; an in-progress status `s` gives `transcribing_s` and re-arms the 5000 ms timer |
| Polling.PollCompletes | server.js:249-279 | a `completed` reply on a pollable job is the completed branch applied to the generation outcome |
| Polling.PollStepFrame | server.js:240-293 | a poll keeps the registered ids and the polled job's identity, touches no other job and addresses only the polled job's room |
| Polling.PollKeepsTimersConsistent | server.js:284-288 | after a poll, no terminal job has an armed timer and every timer is 1000 or 5000 ms |
| Polling.PollLeavesTerminalJobs | server.js:242 | a poll changes no job that is already terminal |
| Polling.ChainFrame | server.js:287 | however often the timer fires, the registered ids stay the same, no other job changes and every event addresses a registered room |
| Polling.TerminalJobIgnoresPolls | server.js:242 | once a job is terminal, any number of further polls change nothing and emit nothing |
| Polling.PendingEvents | server.js:284-286 | the updates of in-progress replies carry one `transcribing_<status>` each and no final result |
| Polling.PendingChain | server.js:284-288 | a run that starts with an in-progress reply is one `transcribing_<status>` update, then the rest of the run on a store where the job is still pollable |
| Polling.LastPoll | server.js:249-279 | a run of one `completed` reply is the completed branch |
| Polling.CompletedOverwrites | server.js:249-279 | the completed branch ends the same way whatever status, time and timer an earlier in-progress poll left |
| Polling.CompletingRun | server.js:240-293 | in-progress replies followed by `completed` emit exactly the in-progress updates and then the four events of the completed branch, and leave the store as the completed branch alone would |
| Polling.PollsToCompletion | server.js:240-293 | the same run as a trail: one `transcribing_<status>` per reply, then `transcription_completed`, `generating_outputs` and the terminal status, with exactly one final result, emitted last |
| Polling.PollsToCompletionState | server.js:240-293 | the same run leaves the job terminal with the transcript stored, no timer, its identity unchanged and every other job untouched |
| Handlers.SourceLabel | server.js:300 | `recording.webm` is labelled `Recording`; any other name `n` is labelled `File (n)` |
| Handlers.AssemblyErrorMessage | server.js:335 | a non-empty response error wins; otherwise a non-empty exception message; otherwise `AssemblyAI processing failed`; so the message is never empty |
| Handlers.NewJob | server.js:302 | a new record is `received` (not terminal), with its source and creation time and no update time, transcript id, transcript or timer |
| Handlers.Then | server.js:52-65 | one update of a registered job after a step: the record gets status and time, no other record changes, and the room events are appended |
| Handlers.UploadStep | server.js:298-338 | a request without a file changes nothing and gets no reply; with a file it is the accepted-upload step |
| Handlers.AcceptedUpload | server.js:299-337 | the store gains exactly the new record, whose whole value is given per outcome: `error_upload` with a 400 reply; `transcribing_queued` with the transcript id, a 1000 ms timer and a 202 reply; or `error_assemblyai` and no reply |
| Handlers.EmptyUpload | server.js:302-309 | the store gains exactly the new `error_upload` record with the source label, and the client gets a 400 with the empty-buffer message |
| Handlers.StartedUpload | server.js:302-312 | the store gains exactly the new record in `uploading_assemblyai`, announced once to its room |
| Handlers.SubmitPhase | server.js:311-337 | from `uploading_assemblyai` on, only the job's record changes: queued with id, timer and 202 on success; `error_assemblyai`, no timer and no reply on either service failure |
| Handlers.RejectedSubmission | server.js:317-336 | only the job's record changes, to `error_assemblyai` with no timer, after `uploaded_assemblyai` and `submitting_transcription` |
| Handlers.Submission | server.js:317-319 | only the job's status and `lastUpdated` change; the room gets `uploaded_assemblyai` then `submitting_transcription` |
| Handlers.AcceptedSubmission | server.js:317-330 | only the job's record changes: queued with the transcript id, the 1000 ms timer and a 202 reply |
| Handlers.Queued | server.js:325-330 | the transcript id is stored, the job announced as queued, the client gets 202 and the first poll is armed one second out |
| Handlers.SubmitTrail | server.js:311-337 | the submission phase's status trail, by outcome, with a final result only on failure |
| Handlers.UploadTrail | server.js:298-338 | an accepted upload's trail is `error_upload`, or `uploading_assemblyai` followed by the submission statuses; it has one final result unless the job was queued |
| Handlers.UploadFailureReported | server.js:304-337 | a failed upload's last event is its final result, carrying the failure message |
| Handlers.DevRun | server.js:357-405 | dev mode first sends the requesting socket the update `dev_reading_file` under the id `dev_<socket>` with `Reading local transcript.json...`, then the events after the read |
| Handlers.DevAfterRead | server.js:364-405 | every event goes to the requesting socket; all but the last are status updates under `dev_<socket>`, with `dev_parsing_file` and `Parsing transcript...` once the file was read and `dev_generating_outputs` and `Calling Groq API...` once it parsed; the last is the only result, successful only for a loaded transcript, with the not-found, read and parse messages on those failures |
| Handlers.DevTrail | server.js:364-405 | after the read, the statuses are none for a missing or unreadable file, `dev_parsing_file` for bad JSON, and `dev_parsing_file`, `dev_generating_outputs` for a loaded transcript; no final result |
| Handlers.DevRunTrail | server.js:357-405 | the whole dev request's statuses are `dev_reading_file` followed by those of `DevTrail`; no final result |
| Handlers.DevOutcome | server.js:379-396 | the dev result succeeds exactly when generation reports no error, carrying transcript and note; otherwise it carries the error only |
| Server.JobServer.constructor | server.js:36 | the store, the rooms and the event log start empty, and the invariant holds |
| Server.JobServer.UpdateJobStatus | server.js:52-89 | the in-place update has exactly the effect of `ApplyUpdate` and keeps the invariant; rooms are unchanged |
| Server.JobServer.Poll | server.js:240-294 | a timer firing has exactly the effect of `PollStep` and keeps the invariant |
| Server.JobServer.KeepPolling | server.js:284-288 | an in-progress reply records `transcribing_<status>` and re-arms the 5000 ms timer |
| Server.JobServer.CompleteTranscription | server.js:249-279 | the completed branch has exactly the effect of `CompletedStep` on the generation outcome |
| Server.JobServer.AnnounceGeneration | server.js:251-265 | storing the transcript and the two announcements have exactly the effect of `Announced` |
| Server.JobServer.FinishJob | server.js:268-279 | the terminal update after generation, `error_generation` or `completed` |
| Server.JobServer.Upload | server.js:298-338 | the route has exactly the effect and reply of `UploadStep` and keeps the invariant |
| Server.JobServer.AcceptUpload | server.js:302-337 | the route with a file has exactly the effect and reply of `AcceptedUpload` |
| Server.JobServer.RejectEmptyUpload | server.js:302-309 | the empty-buffer path has exactly the effect and reply of `EmptyUpload` |
| Server.JobServer.StartUpload | server.js:302-312 | record creation and `uploading_assemblyai`, as `StartedUpload` |
| Server.JobServer.SubmitAudio | server.js:311-337 | the two service requests, as `SubmitPhase` |
| Server.JobServer.RejectSubmission | server.js:317-336 | a rejected transcript request, as `RejectedSubmission` |
| Server.JobServer.AcceptSubmission | server.js:317-330 | both requests succeed, as `AcceptedSubmission` |
| Server.JobServer.QueueJob | server.js:325-330 | the transcript id is stored, then `transcribing_queued`, the 202 reply and the 1000 ms timer, as `Queued` |
| Server.JobServer.CreateJob | server.js:302 | registers exactly the new `received` record; the event log and rooms are unchanged |
| Server.JobServer.SubmitTranscription | server.js:317-319 | `uploaded_assemblyai` then `submitting_transcription`, as `Submission` |
| Server.JobServer.JoinJobRoom | server.js:344-354 | a known job's room is joined and its current status sent to the socket; an unknown id gets status `error` with `Invalid Job ID` and joins nothing; the store is unchanged |
| Server.JobServer.DevGenerateRequest | server.js:357-405 | the store and rooms are unchanged, and the socket receives exactly `DevRun` |
| Server.JobServer.DevProcess | server.js:364-405 | the store and rooms are unchanged, and the socket receives exactly `DevAfterRead` |
| Server.JobServer.DevGenerate | server.js:379-396 | generation on the loaded transcript sends exactly `DevOutcome` to the socket |
| Server.JobServer.EmitDirect | server.js:362 | `updateJobStatus(null, …, socket)` touches no record and sends one direct event to the socket |

## Left out

- Express, multer, socket.io and the HTTP clients: their results are outcome values. The bodies and URLs of the requests are not modelled.
- The prompt text sent to the language model, a constant string apart from the embedded flattened transcript. `GenerateSoapNote` returns that embedded text.
- `JSON.parse` and `JSON.stringify`: parsing is a function parameter, and the parsed object is abstracted to its section arrays and its `error`/`details` keys. JSON `null`, primitives and the other transcript fields are not represented, the utterance `words` field included.
- Reading `transcript.json` in dev mode is a `ReadOutcome`. Writing the side file after a completed poll is the `saved` parameter of `Server.JobServer.Poll`, which has no effect on the job, as in the code.
- `generateJobId` uses `Date.now()` and `Math.random()`. The id is a parameter that callers take fresh and prefixed with `job_`. `Date` timestamps are a natural-number clock `now`. Each handler reads that clock once, while the code calls `new Date()` again after every awaited request. So in the model an accepted upload has `createdAt == lastUpdated` at each step of the route, and every update made by a completing poll, including the ones after the note-generation request, carries the time the poll fired.
- Real timers: a timer is the delay stored on the record, and a firing is a call of `Poll`. `clearTimeout` is the removal of that delay.
- Server.JobServer.Poll: the re-check after the awaited poll request is not modelled. A handler here runs to completion without interleaving, so that check always sees what the first check saw.
- A request without any file fails at the source-label line before the record exists. The model leaves the store unchanged, sends no reply and does not model what the exception does outside the handler. The `No file received.` message is therefore unreachable.
- The catch path of the upload route sends no HTTP reply. That reply is `None`.
- Server.JobServer.JoinJobRoom: a job id is a key of the store map, so ids that name properties every JavaScript object inherits (`constructor`, `__proto__`, `toString`, `hasOwnProperty` and the like) are treated as unknown. The code finds a truthy value for them and would join that room and read its status.
- Console logging, the `disconnect` handler, static file serving and the browser client (`public/script.js`) are not part of this model.

=== FILE: common.dfy ===
/** Small shared vocabulary: optional values and the two JavaScript string idioms the server relies on. */
module Common {

  /** An optional value; `None` stands for `undefined`/`null` in the server's records. */
  datatype Option<T> = None | Some(value: T)

  /** JavaScript's `o || d` on an optional string: an absent or empty string is falsy and gives `d`. */
  function OrDefault(o: Option<string>, d: string): (r: string)
    ensures o.Some? && o.value != "" ==> r == o.value
    ensures !(o.Some? && o.value != "") ==> r == d
    ensures d != "" ==> r != ""
  {
    if o.Some? && o.value != "" then o.value else d
  }

  /** `s.startsWith(p)`. */
  predicate StartsWith(s: string, p: string)
  {
    |p| <= |s| && s[..|p|] == p
  }

  lemma SeqAssoc<T>(x: seq<T>, y: seq<T>, z: seq<T>)
    ensures x + (y + z) == (x + y) + z
  {
  }

  /** A second update of the same key overrides the first. */
  lemma UpdateTwice<K, V>(m: map<K, V>, k: K, a: V, b: V)
    ensures m[k := a][k := b] == m[k := b]
  {
  }
}

=== FILE: generation.dfy ===
/**
 * The note-generation step: input validation, the empty-transcript short circuit, the flattening of
 * the transcript into the request text, and the classification of the language-model reply into an
 * error object or the parsed note. The HTTP exchange and `JSON.parse` are outcomes given as inputs.
 */
module Generation {
  import opened Common
  import opened Text
  import opened Transcripts

  /** One generated sentence and the utterance indices it was derived from. */
  datatype Sentence = Sentence(sentence: string, mapping: seq<int>)

  /**
   * The object the model's reply parses to: its section arrays by key, and the `error` and
   * `details` keys, which the caller inspects when it decides whether generation failed.
   */
  datatype NoteObject = NoteObject(sections: map<string, seq<Sentence>>, error: Option<string>, details: Option<string>)

  /** The outcome of the chat-completion request. */
  datatype GroqReply =
    | FetchFailed(message: string)     // the request itself threw
    | NotOk(statusText: string)        // `!response.ok`
    | BodyFailed(message: string)      // reading `response.json()` or `data.choices[0]` threw
    | Content(raw: Option<string>)     // `data.choices[0]?.message?.content`

  /** The outcome of `JSON.parse` on the trimmed content. */
  datatype JsonParse = Malformed(message: string) | Parsed(obj: NoteObject)

  /** What generation returns: an `{error, details}` object, or the note object. */
  datatype GenerationResult = Failure(error: string, details: Option<string>) | Note(obj: NoteObject)

  const SectionKeys: seq<string> := ["Subjective", "Objective", "Assessment", "Plan"]
  const UnusableError := "Transcript data unusable."
  const UnusableDetails := "Input object must have an 'utterances' array."
  const ServicePrefix := "Error generating SOAP note: "
  const ParsePrefix := "Failed to parse AI response as JSON: "
  const EmptyContentMessage := "Groq returned empty content."
  /** The progress message sent just before the generation request, in both the job and the dev path. */
  const CallingMessage := "Calling Groq API..."

  /** The structure returned for a transcript without utterances: the four sections, all empty. */
  const EmptyNote := NoteObject(map["Subjective" := [], "Objective" := [], "Assessment" := [], "Plan" := []], None, None)

  /** Whether a parsed note carries all four section keys (only a warning is logged when not). */
  predicate HasAllSections(o: NoteObject)
  {
    forall i :: 0 <= i < |SectionKeys| ==> SectionKeys[i] in o.sections
  }

  /** Whether the external service is called at all: the transcript has a non-empty utterance array. */
  predicate Requested(t: Transcript)
  {
    t.utterances.Some? && |t.utterances.value| > 0
  }

  /** `data.choices[0]?.message?.content?.trim()`, with `undefined` read as the (falsy) empty string. */
  function ContentText(raw: Option<string>): (r: string)
    ensures raw.None? ==> r == ""
    ensures raw.Some? ==> r == Trim(raw.value)
    ensures raw.Some? ==> (r == "" <==> AllSpace(raw.value))
    ensures r == "" || (!IsJsSpace(r[0]) && !IsJsSpace(r[|r| - 1]))
  {
    if raw.Some? then Trim(raw.value) else ""
  }

  /** A transport message and a parse message can never be mistaken for one another. */
  lemma PrefixesDiffer(m: string)
    ensures StartsWith(ServicePrefix + m, ServicePrefix) && !StartsWith(ServicePrefix + m, ParsePrefix)
    ensures StartsWith(ParsePrefix + m, ParsePrefix) && !StartsWith(ParsePrefix + m, ServicePrefix)
  {
    assert (ServicePrefix + m)[..|ServicePrefix|] == ServicePrefix;
    assert (ParsePrefix + m)[..|ParsePrefix|] == ParsePrefix;
    assert (ServicePrefix + m)[0] == 'E' && (ParsePrefix + m)[0] == 'F';
  }

  /** Classification of the reply to the generation request. */
  function ClassifyReply(reply: GroqReply, parse: string -> JsonParse): (r: GenerationResult)
    ensures r.Failure? ==> r.error != "" && r.details == None
    ensures r.Note? <==> reply.Content? && ContentText(reply.raw) != "" && parse(ContentText(reply.raw)).Parsed?
    ensures r.Note? ==> r.obj == parse(ContentText(reply.raw)).obj
    ensures (r.Failure? && StartsWith(r.error, ServicePrefix)) <==> (!reply.Content? || ContentText(reply.raw) == "")
    ensures (r.Failure? && StartsWith(r.error, ParsePrefix)) <==>
            (reply.Content? && ContentText(reply.raw) != "" && parse(ContentText(reply.raw)).Malformed?)
    ensures reply.Content? && ContentText(reply.raw) != "" && parse(ContentText(reply.raw)).Malformed? ==>
            r.error == ParsePrefix + parse(ContentText(reply.raw)).message
    ensures reply.FetchFailed? || reply.BodyFailed? ==> r == Failure(ServicePrefix + reply.message, None)
    ensures reply.NotOk? ==> r == Failure(ServicePrefix + "Groq API request failed: " + reply.statusText, None)
    ensures reply.Content? && ContentText(reply.raw) == "" ==> r == Failure(ServicePrefix + EmptyContentMessage, None)
  {
    match reply
    case FetchFailed(m) => PrefixesDiffer(m); Failure(ServicePrefix + m, None)
    case NotOk(st) => PrefixesDiffer("Groq API request failed: " + st); Failure(ServicePrefix + "Groq API request failed: " + st, None)
    case BodyFailed(m) => PrefixesDiffer(m); Failure(ServicePrefix + m, None)
    case Content(raw) =>
      var output := ContentText(raw);
      if output == "" then PrefixesDiffer(EmptyContentMessage); Failure(ServicePrefix + EmptyContentMessage, None)
      else match parse(output)
        case Malformed(m) => PrefixesDiffer(m); Failure(ParsePrefix + m, None)
        case Parsed(o) => Note(o)
  }

  /** The value `generateSOAPNoteGroq` resolves to. */
  function Generate(t: Transcript, reply: GroqReply, parse: string -> JsonParse): (r: GenerationResult)
    ensures !Requested(t) ==> (r.Note? <==> t.utterances.Some?)
    ensures t.utterances.None? ==> r == Failure(UnusableError, Some(UnusableDetails))
    ensures t.utterances == Some([]) ==> r.Note? && r.obj == EmptyNote && HasAllSections(r.obj)
    ensures Requested(t) ==> r == ClassifyReply(reply, parse)
    ensures r.Failure? ==> r.error != ""
  {
    if t.utterances.None? then Failure(UnusableError, Some(UnusableDetails))
    else if |t.utterances.value| == 0 then Note(EmptyNote)
    else ClassifyReply(reply, parse)
  }

  /** A parsed reply that lacks some of the four section keys is still returned as the note. */
  lemma MissingSectionsAccepted(t: Transcript, reply: GroqReply, parse: string -> JsonParse, o: NoteObject)
    requires Requested(t) && reply.Content? && ContentText(reply.raw) != ""
    requires parse(ContentText(reply.raw)) == Parsed(o) && !HasAllSections(o)
    ensures Generate(t, reply, parse) == Note(o)
  {
  }

  /** The `error` field the caller reads off the result. */
  function ErrorField(r: GenerationResult): Option<string>
  {
    match r
    case Failure(e, _) => Some(e)
    case Note(o) => o.error
  }

  /** The `details` field the caller reads off the result. */
  function DetailsField(r: GenerationResult): Option<string>
  {
    match r
    case Failure(_, d) => d
    case Note(o) => o.details
  }

  /** The caller's test `if (soapNoteJson.error)`: the `error` field is truthy. */
  predicate ReportsError(r: GenerationResult)
  {
    ErrorField(r).Some? && ErrorField(r).value != ""
  }

  /** Every failure object is seen as a failure by the caller; a note is seen as one only when the
      parsed object itself carries a non-empty `error` key. */
  lemma FailuresAreReported(t: Transcript, reply: GroqReply, parse: string -> JsonParse)
    ensures var r := Generate(t, reply, parse);
            ReportsError(r) <==> r.Failure? || (r.obj.error.Some? && r.obj.error.value != "")
  {
  }

  /**
   * `generateSOAPNoteGroq`: returns the generation result and, when the service is called, the
   * flattened transcript text that the request's prompt embeds.
   */
  method GenerateSoapNote(t: Transcript, reply: GroqReply, parse: string -> JsonParse)
    returns (r: GenerationResult, requestText: Option<string>)
    ensures r == Generate(t, reply, parse)
    ensures requestText.Some? <==> Requested(t)
    ensures Requested(t) ==> requestText == Some(Flatten(t.utterances.value))
  {
    if t.utterances.None? {
      return Failure(UnusableError, Some(UnusableDetails)), None;
    }
    var us := t.utterances.value;
    if |us| == 0 {
      return Note(EmptyNote), None;
    }
    var processedText := FlattenTranscript(us);
    requestText := Some(processedText);
    r := ClassifyReply(reply, parse);
  }
}

=== FILE: handlers.dfy ===
/**
 * The upload route and the dev-mode request as steps on the job map: which record is created,
 * which statuses it passes through, what the HTTP reply is, and which events reach whom.
 */
module Handlers {
  import opened Common
  import opened Transcripts
  import opened Generation
  import opened Jobs

  /** The multipart `audio` field. `buffer == None` stands for a missing or falsy buffer; a
      zero-length buffer is a (truthy) `Some([])`. */
  datatype AudioFile = AudioFile(originalName: string, buffer: Option<seq<bv8>>)

  /** A rejected request to the transcription service: `error.response?.data?.error` and `error.message`. */
  datatype ServiceError = ServiceError(responseError: Option<string>, message: Option<string>)

  /** How the two submissions to the transcription service went. */
  datatype SubmitOutcome =
    | UploadRejected(err: ServiceError)   // `POST /upload` threw
    | SubmitRejected(err: ServiceError)   // `POST /transcript` threw
    | Submitted(transcriptId: string)     // both succeeded; the transcript resource's id

  /** The HTTP response the route sends, if any. */
  datatype HttpReply = HttpReply(code: nat, jobId: string, error: Option<string>)

  /** The effect of one upload request. */
  datatype UploadRun = UploadRun(step: Step, reply: Option<HttpReply>)

  const EmptyBufferMessage := "Received empty file buffer."
  const NotFoundMessage := "Error: transcript.json not found in project root."
  const ReadingMessage := "Reading local transcript.json..."
  const ParsingMessage := "Parsing transcript..."

  /** How the upload's origin is described on the record. */
  function SourceLabel(name: string): (r: string)
    ensures name == "recording.webm" ==> r == "Recording"
    ensures name != "recording.webm" ==>
      |r| == |name| + 7 && r[..6] == "File (" && r[6..|r| - 1] == name && r[|r| - 1] == ')'
  {
    if name == "recording.webm" then "Recording" else "File (" + name + ")"
  }

  /** `error.response?.data?.error || error.message || 'AssemblyAI processing failed'`. */
  function AssemblyErrorMessage(e: ServiceError): (r: string)
    ensures r != ""
    ensures e.responseError.Some? && e.responseError.value != "" ==> r == e.responseError.value
    ensures !(e.responseError.Some? && e.responseError.value != "") && e.message.Some? && e.message.value != "" ==>
            r == e.message.value
    ensures !(e.responseError.Some? && e.responseError.value != "") && !(e.message.Some? && e.message.value != "") ==>
            r == "AssemblyAI processing failed"
  {
    OrDefault(e.responseError, OrDefault(e.message, "AssemblyAI processing failed"))
  }

  /** A freshly accepted upload. */
  function NewJob(source: string, now: nat): (j: Job)
    ensures j.status == "received" && !IsTerminal(j.status) && TimerConsistent(j)
    ensures j.source == source && j.createdAt == now
    ensures j.lastUpdated == None && j.transcriptId == None && j.transcriptData == None && j.pollTimer == None
  {
    NotTerminal("received");
    Job("received", source, now, None, None, None, None)
  }

  /** Applies one status update of a registered job after `s`, keeping the events emitted so far. */
  function Then(s: Step, jobId: string, status: string, data: UpdateData, now: nat): (r: Step)
    requires jobId in s.jobs
    ensures r.jobs.Keys == s.jobs.Keys
    ensures r.jobs == s.jobs[jobId := s.jobs[jobId].(status := status, lastUpdated := Some(now),
                                                     pollTimer := if IsTerminal(status) then None else s.jobs[jobId].pollTimer)]
    ensures r.emitted == s.emitted + RoomEvents(jobId, status, data)
  {
    var n := ApplyUpdate(s.jobs, jobId, status, data, None, now);
    assert n.emitted == RoomEvents(jobId, status, data);
    Step(n.jobs, s.emitted + n.emitted)
  }

  /** The events of the upload route from `uploading_assemblyai` on, by how the two submissions went. */
  function SubmitEvents(jobId: string, outcome: SubmitOutcome): seq<Event>
  {
    match outcome
    case UploadRejected(e) => RoomEvents(jobId, "error_assemblyai", ErrorData(AssemblyErrorMessage(e)))
    case SubmitRejected(e) =>
      RoomEvents(jobId, "uploaded_assemblyai", NoData) + RoomEvents(jobId, "submitting_transcription", NoData)
      + RoomEvents(jobId, "error_assemblyai", ErrorData(AssemblyErrorMessage(e)))
    case Submitted(_) =>
      RoomEvents(jobId, "uploaded_assemblyai", NoData) + RoomEvents(jobId, "submitting_transcription", NoData)
      + RoomEvents(jobId, "transcribing_queued", NoData)
  }

  /** All events of an accepted upload. */
  function UploadEvents(jobId: string, file: AudioFile, outcome: SubmitOutcome): seq<Event>
  {
    if file.buffer.None? then RoomEvents(jobId, "error_upload", ErrorData(EmptyBufferMessage))
    else RoomEvents(jobId, "uploading_assemblyai", NoData) + SubmitEvents(jobId, outcome)
  }

  /** `POST /upload` with a fresh `jobId`. */
  function UploadStep(jobs: map<string, Job>, jobId: string, file: Option<AudioFile>, outcome: SubmitOutcome,
                      now: nat): (r: UploadRun)
    requires jobId !in jobs
    ensures file.None? ==> r == UploadRun(Step(jobs, []), None)
    ensures file.Some? ==> r == AcceptedUpload(jobs, jobId, file.value, outcome, now)
  {
    if file.None? then UploadRun(Step(jobs, []), None)
    else AcceptedUpload(jobs, jobId, file.value, outcome, now)
  }

  /** The upload route once the request carries a file: the record is created as `received`,
      then updated until the job is queued for transcription or has failed. */
  function AcceptedUpload(jobs: map<string, Job>, jobId: string, file: AudioFile, outcome: SubmitOutcome,
                          now: nat): (r: UploadRun)
    requires jobId !in jobs
    ensures r.step.jobs.Keys == jobs.Keys + {jobId}
    ensures r.step.emitted == UploadEvents(jobId, file, outcome)
    ensures file.buffer.None? ==>
      && r.step.jobs == jobs[jobId := Job("error_upload", SourceLabel(file.originalName), now, Some(now), None, None, None)]
      && r.reply == Some(HttpReply(400, jobId, Some(EmptyBufferMessage)))
    ensures file.buffer.Some? && outcome.Submitted? ==>
      && r.step.jobs == jobs[jobId := Job("transcribing_queued", SourceLabel(file.originalName), now, Some(now),
                                          Some(outcome.transcriptId), None, Some(1000))]
      && r.reply == Some(HttpReply(202, jobId, None))
    ensures file.buffer.Some? && !outcome.Submitted? ==>
      && r.step.jobs == jobs[jobId := Job("error_assemblyai", SourceLabel(file.originalName), now, Some(now), None, None, None)]
      && r.reply == None
  {
    if file.buffer.None? then EmptyUpload(jobs, jobId, file.originalName, now)
    else
      var started := StartedUpload(jobs, jobId, file.originalName, now);
      var submit := SubmitPhase(started.jobs, jobId, outcome, now);
      UpdateTwice(jobs, jobId, started.jobs[jobId], submit.step.jobs[jobId]);
      UploadRun(Step(submit.step.jobs, started.emitted + submit.step.emitted), submit.reply)
  }

  /** The file arrived without a buffer: the new record fails at once and the client gets a 400. */
  function EmptyUpload(jobs: map<string, Job>, jobId: string, name: string, now: nat): (r: UploadRun)
    requires jobId !in jobs
    ensures r.step.jobs.Keys == jobs.Keys + {jobId}
    ensures r.step.jobs == jobs[jobId := Job("error_upload", SourceLabel(name), now, Some(now), None, None, None)]
    ensures r.step.emitted == RoomEvents(jobId, "error_upload", ErrorData(EmptyBufferMessage))
    ensures r.reply == Some(HttpReply(400, jobId, Some(EmptyBufferMessage)))
  {
    var job := NewJob(SourceLabel(name), now);
    assert "error_upload"[..5] == "error";
    UpdateTwice(jobs, jobId, job, job.(status := "error_upload", lastUpdated := Some(now), pollTimer := None));
    UploadRun(Then(Step(jobs[jobId := job], []), jobId, "error_upload", ErrorData(EmptyBufferMessage), now),
              Some(HttpReply(400, jobId, Some(EmptyBufferMessage))))
  }

  /** The new record after `received` and `uploading_assemblyai`. */
  function StartedUpload(jobs: map<string, Job>, jobId: string, name: string, now: nat): (r: Step)
    requires jobId !in jobs
    ensures r.jobs.Keys == jobs.Keys + {jobId}
    ensures r.jobs == jobs[jobId := Job("uploading_assemblyai", SourceLabel(name), now, Some(now), None, None, None)]
    ensures r.emitted == RoomEvents(jobId, "uploading_assemblyai", NoData)
  {
    NotTerminal("uploading_assemblyai");
    var created := Step(jobs[jobId := NewJob(SourceLabel(name), now)], []);
    Then(created, jobId, "uploading_assemblyai", NoData, now)
  }

  /** The upload route from the `uploading_assemblyai` status on. */
  function SubmitPhase(jobs: map<string, Job>, jobId: string, outcome: SubmitOutcome, now: nat): (r: UploadRun)
    requires jobId in jobs
    ensures r.step.jobs.Keys == jobs.Keys
    ensures r.step.emitted == SubmitEvents(jobId, outcome)
    ensures outcome.Submitted? ==>
      && r.step.jobs == jobs[jobId := jobs[jobId].(status := "transcribing_queued", lastUpdated := Some(now),
                                                   transcriptId := Some(outcome.transcriptId), pollTimer := Some(1000))]
      && r.reply == Some(HttpReply(202, jobId, None))
    ensures !outcome.Submitted? ==>
      && r.step.jobs == jobs[jobId := jobs[jobId].(status := "error_assemblyai", lastUpdated := Some(now), pollTimer := None)]
      && r.reply == None
  {
    match outcome
    case UploadRejected(e) =>
      ErrorStatuses();
      UploadRun(Then(Step(jobs, []), jobId, "error_assemblyai", ErrorData(AssemblyErrorMessage(e)), now), None)
    case SubmitRejected(e) => UploadRun(RejectedSubmission(jobs, jobId, e, now), None)
    case Submitted(tid) => AcceptedSubmission(jobs, jobId, tid, now)
  }

  /** `POST /transcript` threw after the audio was uploaded. */
  function RejectedSubmission(jobs: map<string, Job>, jobId: string, e: ServiceError, now: nat): (r: Step)
    requires jobId in jobs
    ensures r.jobs.Keys == jobs.Keys
    ensures r.jobs == jobs[jobId := jobs[jobId].(status := "error_assemblyai", lastUpdated := Some(now), pollTimer := None)]
    ensures r.emitted == SubmitEvents(jobId, SubmitRejected(e))
  {
    ErrorStatuses();
    var s := Submission(jobs, jobId, now);
    var r := Then(s, jobId, "error_assemblyai", ErrorData(AssemblyErrorMessage(e)), now);
    UpdateTwice(jobs, jobId, s.jobs[jobId], r.jobs[jobId]);
    r
  }

  /** The audio was uploaded and the transcription request is being sent. */
  function Submission(jobs: map<string, Job>, jobId: string, now: nat): (r: Step)
    requires jobId in jobs
    ensures r.jobs.Keys == jobs.Keys
    ensures r.jobs == jobs[jobId := jobs[jobId].(status := "submitting_transcription", lastUpdated := Some(now))]
    ensures r.emitted == RoomEvents(jobId, "uploaded_assemblyai", NoData) + RoomEvents(jobId, "submitting_transcription", NoData)
  {
    NotTerminal("uploaded_assemblyai");
    NotTerminal("submitting_transcription");
    var s2 := Then(Step(jobs, []), jobId, "uploaded_assemblyai", NoData, now);
    Then(s2, jobId, "submitting_transcription", NoData, now)
  }

  /** Both submissions succeeded: the transcript id is stored and the first poll is armed. */
  function AcceptedSubmission(jobs: map<string, Job>, jobId: string, tid: string, now: nat): (r: UploadRun)
    requires jobId in jobs
    ensures r.step.jobs.Keys == jobs.Keys
    ensures r.step.jobs == jobs[jobId := jobs[jobId].(status := "transcribing_queued", lastUpdated := Some(now),
                                                      transcriptId := Some(tid), pollTimer := Some(1000))]
    ensures r.reply == Some(HttpReply(202, jobId, None))
    ensures r.step.emitted == SubmitEvents(jobId, Submitted(tid))
  {
    var s := Submission(jobs, jobId, now);
    var q := Queued(s.jobs, jobId, tid, now);
    UpdateTwice(jobs, jobId, s.jobs[jobId], q.step.jobs[jobId]);
    UploadRun(Step(q.step.jobs, s.emitted + q.step.emitted), q.reply)
  }

  /** The transcript id is stored, the job is announced as queued, the client gets its 202 and
      the first poll is armed one second out. */
  function Queued(jobs: map<string, Job>, jobId: string, tid: string, now: nat): (r: UploadRun)
    requires jobId in jobs
    ensures r.step.jobs == jobs[jobId := jobs[jobId].(status := "transcribing_queued", lastUpdated := Some(now),
                                                       transcriptId := Some(tid), pollTimer := Some(1000))]
    ensures r.step.emitted == RoomEvents(jobId, "transcribing_queued", NoData)
    ensures r.reply == Some(HttpReply(202, jobId, None))
  {
    NotTerminal("transcribing_queued");
    var withId := Step(jobs[jobId := jobs[jobId].(transcriptId := Some(tid))], []);
    var s := Then(withId, jobId, "transcribing_queued", NoData, now);
    UploadRun(Step(s.jobs[jobId := s.jobs[jobId].(pollTimer := Some(1000))], s.emitted), Some(HttpReply(202, jobId, None)))
  }

  /** The statuses after `uploading_assemblyai`, by how the two submissions went. */
  function SubmitStatuses(outcome: SubmitOutcome): seq<string>
  {
    match outcome
    case UploadRejected(_) => ["error_assemblyai"]
    case SubmitRejected(_) => ["uploaded_assemblyai", "submitting_transcription", "error_assemblyai"]
    case Submitted(_) => ["uploaded_assemblyai", "submitting_transcription", "transcribing_queued"]
  }

  /** The submission phase's statuses; only a failure produces a final result. */
  lemma SubmitTrail(jobId: string, outcome: SubmitOutcome)
    ensures StatusTrail(SubmitEvents(jobId, outcome)) == SubmitStatuses(outcome)
    ensures FinalCount(SubmitEvents(jobId, outcome)) == (if outcome.Submitted? then 0 else 1)
  {
    StatusKinds("");
    match outcome
    case UploadRejected(e) =>
      RoomTrail(jobId, "error_assemblyai", ErrorData(AssemblyErrorMessage(e)));
    case SubmitRejected(e) =>
      ThreeUpdatesTrail(jobId, "error_assemblyai", ErrorData(AssemblyErrorMessage(e)));
    case Submitted(_) =>
      ThreeUpdatesTrail(jobId, "transcribing_queued", NoData);
  }

  /** The trail of `uploaded_assemblyai`, `submitting_transcription` and a third status. */
  lemma ThreeUpdatesTrail(jobId: string, last: string, data: UpdateData)
    ensures var e := RoomEvents(jobId, "uploaded_assemblyai", NoData) + RoomEvents(jobId, "submitting_transcription", NoData)
                     + RoomEvents(jobId, last, data);
      && StatusTrail(e) == ["uploaded_assemblyai", "submitting_transcription", last]
      && FinalCount(e) == (if IsTerminal(last) then 1 else 0)
  {
    StatusKinds("");
    var a := RoomEvents(jobId, "uploaded_assemblyai", NoData);
    var b := RoomEvents(jobId, "submitting_transcription", NoData);
    var c := RoomEvents(jobId, last, data);
    RoomTrail(jobId, "uploaded_assemblyai", NoData);
    RoomTrail(jobId, "submitting_transcription", NoData);
    RoomTrail(jobId, last, data);
    TrailAppend(a, b);
    TrailAppend(a + b, c);
  }

  /** Every accepted upload ends its trail in exactly one of three ways: `error_upload` or
      `error_assemblyai` with a single final result, or `transcribing_queued` with none. */
  lemma UploadTrail(jobId: string, file: AudioFile, outcome: SubmitOutcome)
    ensures StatusTrail(UploadEvents(jobId, file, outcome)) ==
      (if file.buffer.None? then ["error_upload"] else ["uploading_assemblyai"] + SubmitStatuses(outcome))
    ensures FinalCount(UploadEvents(jobId, file, outcome)) == (if file.buffer.Some? && outcome.Submitted? then 0 else 1)
  {
    StatusKinds("");
    if file.buffer.None? {
      RoomTrail(jobId, "error_upload", ErrorData(EmptyBufferMessage));
    } else {
      RoomTrail(jobId, "uploading_assemblyai", NoData);
      SubmitTrail(jobId, outcome);
      TrailAppend(RoomEvents(jobId, "uploading_assemblyai", NoData), SubmitEvents(jobId, outcome));
    }
  }

  /** A failed upload's last event is its final result, carrying the error it reports. */
  lemma UploadFailureReported(jobId: string, file: AudioFile, outcome: SubmitOutcome)
    requires file.buffer.None? || !outcome.Submitted?
    ensures var e := UploadEvents(jobId, file, outcome);
      e[|e| - 1] == FinalResult(Room(jobId), jobId, if file.buffer.None? then "error_upload" else "error_assemblyai", None,
                                Some(if file.buffer.None? then EmptyBufferMessage else AssemblyErrorMessage(outcome.err)))
  {
    StatusKinds("");
  }

  /** How reading and parsing the saved transcript went. */
  datatype ReadOutcome =
    | FileMissing                      // the read failed with `ENOENT`
    | ReadFailed(message: string)      // the read failed otherwise
    | BadJson(message: string)         // the content is not JSON
    | Loaded(transcript: Transcript)   // the parsed transcript

  /** The events of one dev-mode request from socket `socketId`, in order. */
  function DevRun(socketId: string, read: ReadOutcome, groq: GroqReply, parse: string -> JsonParse): (r: seq<Event>)
    ensures |r| >= 2 && r[0] == StatusUpdate(Socket(socketId), "dev_" + socketId, "dev_reading_file", MessageData(ReadingMessage))
    ensures r[1..] == DevAfterRead(socketId, read, groq, parse)
  {
    [DirectEvent(socketId, "dev_reading_file", MessageData(ReadingMessage))]
    + DevAfterRead(socketId, read, groq, parse)
  }

  /** The dev statuses sent after `dev_reading_file`, by how reading the file went. */
  function DevStatuses(read: ReadOutcome): seq<string>
  {
    match read
    case FileMissing => []
    case ReadFailed(_) => []
    case BadJson(_) => ["dev_parsing_file"]
    case Loaded(_) => ["dev_parsing_file", "dev_generating_outputs"]
  }

  /** The progress messages that go with `DevStatuses`, one per status. */
  function DevMessages(read: ReadOutcome): (r: seq<string>)
    ensures |r| == |DevStatuses(read)|
  {
    match read
    case FileMissing => []
    case ReadFailed(_) => []
    case BadJson(_) => [ParsingMessage]
    case Loaded(_) => [ParsingMessage, CallingMessage]
  }

  /** The dev-mode events after `dev_reading_file`: every one goes to the requesting socket, all
      but the last are status updates under the id `dev_<socket>`, and the last is the only result. */
  function DevAfterRead(socketId: string, read: ReadOutcome, groq: GroqReply, parse: string -> JsonParse): (r: seq<Event>)
    ensures |r| == |DevStatuses(read)| + 1
    ensures forall i :: 0 <= i < |r| ==> r[i].target == Socket(socketId)
    ensures forall i :: 0 <= i < |r| - 1 ==>
      r[i] == StatusUpdate(Socket(socketId), "dev_" + socketId, DevStatuses(read)[i], MessageData(DevMessages(read)[i]))
    ensures r[|r| - 1].DevGenerateResult?
    ensures r[|r| - 1].success ==> read.Loaded?
    ensures read.Loaded? ==> r[|r| - 1] == DevOutcome(socketId, read.transcript, groq, parse)
    ensures read.FileMissing? ==> r[|r| - 1].error == Some(NotFoundMessage)
    ensures read.ReadFailed? ==> r[|r| - 1].error == Some("Error in dev mode: " + read.message)
    ensures read.BadJson? ==> r[|r| - 1].error == Some("Failed to parse transcript.json: " + read.message)
  {
    match read
    case FileMissing => [DirectEvent(socketId, "dev_error", ErrorData(NotFoundMessage))]
    case ReadFailed(m) => [DirectEvent(socketId, "dev_error", ErrorData("Error in dev mode: " + m))]
    case BadJson(m) =>
      [DirectEvent(socketId, "dev_parsing_file", MessageData(ParsingMessage)),
       DirectEvent(socketId, "dev_error", ErrorData("Failed to parse transcript.json: " + m))]
    case Loaded(t) =>
      [DirectEvent(socketId, "dev_parsing_file", MessageData(ParsingMessage)),
       DirectEvent(socketId, "dev_generating_outputs", MessageData(CallingMessage)),
       DevOutcome(socketId, t, groq, parse)]
  }

  /** The dev statuses of a request after `dev_reading_file`, by how reading the file went:
      `dev_parsing_file` once the file was read and `dev_generating_outputs` once it parsed; no
      event of the dev path is a job's final result. */
  lemma DevTrail(socketId: string, read: ReadOutcome, groq: GroqReply, parse: string -> JsonParse)
    ensures var r := DevAfterRead(socketId, read, groq, parse);
      StatusTrail(r) == DevStatuses(read) && FinalCount(r) == 0
  {
    UpdatesThenResult(DevAfterRead(socketId, read, groq, parse), DevStatuses(read));
  }

  /** Status updates with the given statuses followed by one dev result. */
  lemma {:induction false} UpdatesThenResult(r: seq<Event>, statuses: seq<string>)
    requires |r| == |statuses| + 1 && r[|r| - 1].DevGenerateResult?
    requires forall i :: 0 <= i < |statuses| ==> r[i].StatusUpdate? && r[i].status == statuses[i]
    ensures StatusTrail(r) == statuses && FinalCount(r) == 0
    decreases |statuses|
  {
    if statuses == [] {
      assert r[1..] == [];
    } else {
      UpdatesThenResult(r[1..], statuses[1..]);
    }
  }

  /** The whole dev request: `dev_reading_file` first, then the statuses of `DevTrail`. */
  lemma DevRunTrail(socketId: string, read: ReadOutcome, groq: GroqReply, parse: string -> JsonParse)
    ensures var r := DevRun(socketId, read, groq, parse);
      StatusTrail(r) == ["dev_reading_file"] + DevStatuses(read) && FinalCount(r) == 0
  {
    var r := DevRun(socketId, read, groq, parse);
    DevTrail(socketId, read, groq, parse);
    assert StatusTrail(r) == [r[0].status] + StatusTrail(r[1..]);
  }

  /** The dev-mode result once generation has run on the loaded transcript: success exactly when
      the result carries no error, with the transcript and note; otherwise the error alone. */
  function DevOutcome(socketId: string, t: Transcript, groq: GroqReply, parse: string -> JsonParse): (e: Event)
    ensures e.DevGenerateResult? && e.target == Socket(socketId)
    ensures e.success <==> !ReportsError(Generate(t, groq, parse))
    ensures e.success ==> e.results == Some(Results(t, Generate(t, groq, parse).obj)) && e.error == None
    ensures !e.success ==> e.error == ErrorField(Generate(t, groq, parse)) && e.results == None
  {
    var g := Generate(t, groq, parse);
    if ReportsError(g) then DirectEvent(socketId, "dev_error", UpdateData(None, ErrorField(g), None, None))
    else DirectEvent(socketId, "dev_completed", UpdateData(None, None, None, Some(Results(t, g.obj))))
  }
}

=== FILE: jobs.dfy ===
/**
 * Job records, the events the server emits, and `updateJobStatus` as a step on the job map:
 * the new map and the events emitted, in order.
 */
module Jobs {
  import opened Common
  import opened Transcripts
  import opened Generation

  /** A job record of the in-memory store. `pollTimer` holds the delay of the armed timer, if any. */
  datatype Job = Job(
    status: string,
    source: string,
    createdAt: nat,
    lastUpdated: Option<nat>,
    transcriptId: Option<string>,
    transcriptData: Option<Transcript>,
    pollTimer: Option<nat>)

  /** Where an event goes: every socket in the room named by a job id, or one socket. */
  datatype Target = Room(room: string) | Socket(socketId: string)

  /** The `results` payload of a successful job. */
  datatype Results = Results(transcript: Transcript, soapNoteJson: NoteObject)

  /** The optional `data` argument of `updateJobStatus`, spread into the status event. */
  datatype UpdateData = UpdateData(message: Option<string>, error: Option<string>, details: Option<string>, results: Option<Results>)

  /** An emitted socket event. */
  datatype Event =
    | StatusUpdate(target: Target, jobId: string, status: string, data: UpdateData)
    | FinalResult(target: Target, jobId: string, status: string, results: Option<Results>, error: Option<string>)
    | DevGenerateResult(target: Target, success: bool, results: Option<Results>, error: Option<string>)

  /** The effect of one handler: the job map afterwards and the events emitted, in order. */
  datatype Step = Step(jobs: map<string, Job>, emitted: seq<Event>)

  const NoData := UpdateData(None, None, None, None)

  function MessageData(m: string): UpdateData { UpdateData(Some(m), None, None, None) }

  function ErrorData(e: string): UpdateData { UpdateData(None, Some(e), None, None) }

  /** A status is terminal when it is `completed` or starts with `error`. */
  predicate IsTerminal(status: string)
  {
    status == "completed" || StartsWith(status, "error")
  }

  /** Ids produced by the id generator all start with `job_`. */
  predicate IsGeneratedId(id: string)
  {
    StartsWith(id, "job_")
  }

  /** A job that a timer may still poll: it exists and has not reached a terminal status. */
  predicate Pollable(jobs: map<string, Job>, id: string)
  {
    id in jobs && !IsTerminal(jobs[id].status)
  }

  /** An armed timer belongs to a job that is not terminal and has one of the two delays. */
  predicate TimerConsistent(job: Job)
  {
    job.pollTimer.Some? ==> !IsTerminal(job.status) && (job.pollTimer.value == 1000 || job.pollTimer.value == 5000)
  }

  /** The fields fixed when a record is created or submitted, which status updates never touch. */
  predicate SameIdentity(a: Job, b: Job)
  {
    a.source == b.source && a.createdAt == b.createdAt && a.transcriptId == b.transcriptId
  }

  /** An event sent to a job's room concerns that registered job; a dev result goes to a socket. */
  predicate Scoped(e: Event, keys: set<string>)
  {
    match e
    case StatusUpdate(t, j, _, _) => t.Room? ==> t.room == j && j in keys
    case FinalResult(t, j, _, _, _) => t.Room? ==> t.room == j && j in keys
    case DevGenerateResult(t, _, _, _) => t.Socket?
  }

  /** Registering more jobs keeps an event in scope. */
  lemma ScopedGrows(e: Event, keys: set<string>, more: set<string>)
    requires keys <= more && Scoped(e, keys)
    ensures Scoped(e, more)
  {
  }

  /** The statuses carried by the status events, in emission order. */
  function StatusTrail(events: seq<Event>): seq<string>
  {
    if events == [] then []
    else (if events[0].StatusUpdate? then [events[0].status] else []) + StatusTrail(events[1..])
  }

  /** The number of final-result events. */
  function FinalCount(events: seq<Event>): nat
  {
    if events == [] then 0 else (if events[0].FinalResult? then 1 else 0) + FinalCount(events[1..])
  }

  /** The trail and the final-result count of a concatenation are those of its parts. */
  lemma TrailAppend(a: seq<Event>, b: seq<Event>)
    ensures StatusTrail(a + b) == StatusTrail(a) + StatusTrail(b)
    ensures FinalCount(a + b) == FinalCount(a) + FinalCount(b)
  {
    StatusTrailAppend(a, b);
    FinalCountAppend(a, b);
  }

  lemma {:induction false} StatusTrailAppend(a: seq<Event>, b: seq<Event>)
    ensures StatusTrail(a + b) == StatusTrail(a) + StatusTrail(b)
  {
    if a == [] {
      assert a + b == b;
    } else {
      assert (a + b)[0] == a[0] && (a + b)[1..] == a[1..] + b;
      StatusTrailAppend(a[1..], b);
      var h := if a[0].StatusUpdate? then [a[0].status] else [];
      assert StatusTrail(a + b) == h + (StatusTrail(a[1..]) + StatusTrail(b));
      SeqAssoc(h, StatusTrail(a[1..]), StatusTrail(b));
    }
  }

  lemma {:induction false} FinalCountAppend(a: seq<Event>, b: seq<Event>)
    ensures FinalCount(a + b) == FinalCount(a) + FinalCount(b)
  {
    if a == [] {
      assert a + b == b;
    } else {
      assert (a + b)[0] == a[0] && (a + b)[1..] == a[1..] + b;
      FinalCountAppend(a[1..], b);
    }
  }

  /** The event a status change sends straight to a socket when no job record matches. */
  function DirectEvent(socketId: string, status: string, data: UpdateData): (e: Event)
    ensures e.target == Socket(socketId)
    ensures e.DevGenerateResult? <==> status == "dev_completed" || status == "dev_error"
    ensures e.DevGenerateResult? ==> e.success == (status == "dev_completed") && e.results == data.results && e.error == data.error
    ensures e.StatusUpdate? ==> e.jobId == "dev_" + socketId && e.status == status && e.data == data
  {
    if status == "dev_completed" || status == "dev_error" then
      DevGenerateResult(Socket(socketId), status == "dev_completed", data.results, data.error)
    else
      StatusUpdate(Socket(socketId), "dev_" + socketId, status, data)
  }

  /** The events an update of a registered job sends to its room: the status update, and the final
      result when the status is terminal. */
  function RoomEvents(jobId: string, status: string, data: UpdateData): seq<Event>
  {
    [StatusUpdate(Room(jobId), jobId, status, data)]
    + (if IsTerminal(status) then [FinalResult(Room(jobId), jobId, status, data.results, data.error)] else [])
  }

  /** Which of the statuses the server sets are terminal. */
  lemma StatusKinds(s: string)
    ensures !IsTerminal("received") && !IsTerminal("uploading_assemblyai") && !IsTerminal("uploaded_assemblyai")
    ensures !IsTerminal("submitting_transcription") && !IsTerminal("transcribing_queued") && !IsTerminal("transcribing_" + s)
    ensures !IsTerminal("transcription_completed") && !IsTerminal("generating_outputs")
    ensures IsTerminal("error_upload") && IsTerminal("error_assemblyai") && IsTerminal("error_polling")
    ensures IsTerminal("error_transcription") && IsTerminal("error_generation") && IsTerminal("completed")
  {
    ProgressStatuses(s);
    ErrorStatuses();
  }

  lemma ProgressStatuses(s: string)
    ensures !IsTerminal("received") && !IsTerminal("uploading_assemblyai") && !IsTerminal("uploaded_assemblyai")
    ensures !IsTerminal("submitting_transcription") && !IsTerminal("transcribing_queued") && !IsTerminal("transcribing_" + s)
    ensures !IsTerminal("transcription_completed") && !IsTerminal("generating_outputs")
  {
    NotTerminal("received");
    NotTerminal("uploading_assemblyai");
    NotTerminal("uploaded_assemblyai");
    NotTerminal("submitting_transcription");
    NotTerminal("transcribing_queued");
    NotTerminal("transcribing_" + s);
    NotTerminal("transcription_completed");
    NotTerminal("generating_outputs");
  }

  /** A status whose first letter is neither that of `completed` nor that of `error` is not terminal. */
  lemma NotTerminal(status: string)
    requires status != [] && status[0] != 'c' && status[0] != 'e'
    ensures !IsTerminal(status)
  {
    assert "completed"[0] == 'c' && "error"[0] == 'e';
    if |status| >= 5 {
      assert status[..5][0] == status[0];
    }
  }

  lemma ErrorStatuses()
    ensures IsTerminal("error_upload") && IsTerminal("error_assemblyai") && IsTerminal("error_polling")
    ensures IsTerminal("error_transcription") && IsTerminal("error_generation")
  {
    assert "error_upload"[..5] == "error" && "error_assemblyai"[..5] == "error" && "error_polling"[..5] == "error";
    assert "error_transcription"[..5] == "error" && "error_generation"[..5] == "error";
  }

  /** `updateJobStatus(jobId, status, data, socket)` at time `now`. */
  function ApplyUpdate(jobs: map<string, Job>, jobId: string, status: string, data: UpdateData,
                       socket: Option<string>, now: nat): (r: Step)
    ensures r.jobs.Keys == jobs.Keys
    ensures jobId in jobs ==>
      && r.jobs[jobId].status == status
      && r.jobs[jobId].lastUpdated == Some(now)
      && SameIdentity(jobs[jobId], r.jobs[jobId])
      && r.jobs[jobId].transcriptData == jobs[jobId].transcriptData
      && r.jobs[jobId].pollTimer == (if IsTerminal(status) then None else jobs[jobId].pollTimer)
    ensures jobId in jobs ==>
      && |r.emitted| == (if IsTerminal(status) then 2 else 1)
      && r.emitted[0] == StatusUpdate(Room(jobId), jobId, status, data)
      && (IsTerminal(status) ==> r.emitted[1] == FinalResult(Room(jobId), jobId, status, data.results, data.error))
    ensures jobId in jobs ==>
      r.jobs == jobs[jobId := jobs[jobId].(status := status, lastUpdated := Some(now),
                                           pollTimer := if IsTerminal(status) then None else jobs[jobId].pollTimer)]
    ensures jobId in jobs ==> r.emitted == RoomEvents(jobId, status, data)
    ensures jobId !in jobs ==> r.jobs == jobs
    ensures jobId !in jobs && socket.None? ==> r.emitted == []
    ensures jobId !in jobs && socket.Some? ==> r.emitted == [DirectEvent(socket.value, status, data)]
  {
    if jobId in jobs then
      var job := jobs[jobId].(status := status, lastUpdated := Some(now));
      var update := StatusUpdate(Room(jobId), jobId, status, data);
      if IsTerminal(status) then
        var cleared := if job.pollTimer.Some? then job.(pollTimer := None) else job;
        Step(jobs[jobId := cleared], [update, FinalResult(Room(jobId), jobId, status, data.results, data.error)])
      else
        Step(jobs[jobId := job], [update])
    else if socket.Some? then
      Step(jobs, [DirectEvent(socket.value, status, data)])
    else
      Step(jobs, [])
  }

  /** An update touches no other record, addresses only registered rooms with their own job id,
      and never leaves an armed timer on a job it makes terminal. */
  lemma UpdateFrame(jobs: map<string, Job>, jobId: string, status: string, data: UpdateData,
                    socket: Option<string>, now: nat)
    ensures var r := ApplyUpdate(jobs, jobId, status, data, socket, now);
      && (forall id :: id in jobs && id != jobId ==> r.jobs[id] == jobs[id])
      && (forall i :: 0 <= i < |r.emitted| ==> Scoped(r.emitted[i], jobs.Keys))
      && (forall id :: id in jobs && TimerConsistent(jobs[id]) ==> TimerConsistent(r.jobs[id]))
  {
  }

  /** A status update sets the status even on a job that is already terminal: the store itself
      does not guard against a second terminal transition. */
  lemma UpdateDoesNotGuardTerminal(jobs: map<string, Job>, jobId: string, now: nat)
    requires jobId in jobs && jobs[jobId].status == "completed"
    ensures var r := ApplyUpdate(jobs, jobId, "error_polling", NoData, None, now);
            r.jobs[jobId].status == "error_polling" && FinalCount(r.emitted) == 1
  {
    StatusKinds("");
    UpdateTrail(jobs, jobId, "error_polling", NoData, now);
  }

  /** On a registered job, an update contributes its status once to the trail, and one final
      result exactly when the status is terminal. */
  lemma UpdateTrail(jobs: map<string, Job>, jobId: string, status: string, data: UpdateData, now: nat)
    requires jobId in jobs
    ensures var r := ApplyUpdate(jobs, jobId, status, data, None, now);
            StatusTrail(r.emitted) == [status] && FinalCount(r.emitted) == (if IsTerminal(status) then 1 else 0)
  {
    RoomTrail(jobId, status, data);
  }

  /** A room update adds its status to the trail once, and one final result exactly when the status is terminal. */
  lemma RoomTrail(jobId: string, status: string, data: UpdateData)
    ensures StatusTrail(RoomEvents(jobId, status, data)) == [status]
    ensures FinalCount(RoomEvents(jobId, status, data)) == (if IsTerminal(status) then 1 else 0)
  {
    var e := RoomEvents(jobId, status, data);
    var tail := e[1..];
    if IsTerminal(status) {
      assert tail == [e[1]] && tail[1..] == [];
      assert StatusTrail(tail) == [] && FinalCount(tail) == 1;
    } else {
      assert tail == [];
    }
  }
}

=== FILE: polling.dfy ===
/**
 * One firing of a job's poll timer (`pollAssemblyAIStatus`) as a step on the job map, given the
 * transcription service's reply and the generation outcome, and runs of consecutive polls.
 */
module Polling {
  import opened Common
  import opened Transcripts
  import opened Generation
  import opened Jobs

  /** The transcription service's answer to `GET /transcript/{id}`, or the exception it raised. */
  datatype PollReply = Replied(data: Transcript) | PollThrew(message: Option<string>)

  /** A reply whose status is neither `completed` nor `error`: transcription still in progress. */
  predicate IsPending(reply: PollReply)
  {
    reply.Replied? && reply.data.status != "completed" && reply.data.status != "error"
  }

  const CompletedMessage := "Transcription complete. Generating SOAP note..."

  /** The terminal status after generation: the caller tests the result's `error` field. */
  function FinalStatus(g: GenerationResult): (r: string)
    ensures IsTerminal(r)
    ensures r == "completed" <==> !ReportsError(g)
    ensures r == "error_generation" <==> ReportsError(g)
  {
    StatusKinds("");
    if ReportsError(g) then "error_generation" else "completed"
  }

  /** The data of the terminal update after generation: the error and its details when the result
      reports one, otherwise the transcript with the note as the results. */
  function GenerationData(t: Transcript, g: GenerationResult): (d: UpdateData)
    requires g.Failure? ==> g.error != ""
    ensures d.message == None
    ensures d.error.Some? <==> ReportsError(g)
    ensures d.results.Some? <==> !ReportsError(g)
    ensures ReportsError(g) ==> d.error == ErrorField(g) && d.details == DetailsField(g)
    ensures !ReportsError(g) ==> d.results == Some(Results(t, g.obj)) && d.details == None
  {
    if ReportsError(g) then UpdateData(None, ErrorField(g), DetailsField(g), None)
    else UpdateData(None, None, None, Some(Results(t, g.obj)))
  }

  /** The completed branch up to the generation request: the transcript is stored on the record
      (whose timer handle stays as it was) and the room hears `transcription_completed`, then
      `generating_outputs`. */
  function Announced(jobs: map<string, Job>, jobId: string, t: Transcript, now: nat): (r: Step)
    requires jobId in jobs
    ensures r.jobs == jobs[jobId := jobs[jobId].(status := "generating_outputs", lastUpdated := Some(now),
                                                 transcriptData := Some(t))]
    ensures r.emitted == [StatusUpdate(Room(jobId), jobId, "transcription_completed", MessageData(CompletedMessage)),
                          StatusUpdate(Room(jobId), jobId, "generating_outputs", MessageData(CallingMessage))]
  {
    ProgressStatuses("");
    var stored := jobs[jobId := jobs[jobId].(transcriptData := Some(t))];
    var s1 := ApplyUpdate(stored, jobId, "transcription_completed", MessageData(CompletedMessage), None, now);
    var s2 := ApplyUpdate(s1.jobs, jobId, "generating_outputs", MessageData(CallingMessage), None, now);
    Step(s2.jobs, s1.emitted + s2.emitted)
  }

  /** The completed branch, given the generation outcome `g`: store the transcript, announce it,
      announce generation, then finish with `error_generation` (error and details) or `completed`
      (transcript and note), which also clears the timer. */
  function CompletedStep(jobs: map<string, Job>, jobId: string, t: Transcript, g: GenerationResult,
                         now: nat): (r: Step)
    requires jobId in jobs && (g.Failure? ==> g.error != "")
    ensures r.jobs == jobs[jobId := jobs[jobId].(status := FinalStatus(g), lastUpdated := Some(now),
                                                 transcriptData := Some(t), pollTimer := None)]
    ensures r.emitted == [StatusUpdate(Room(jobId), jobId, "transcription_completed", MessageData(CompletedMessage)),
                          StatusUpdate(Room(jobId), jobId, "generating_outputs", MessageData(CallingMessage)),
                          StatusUpdate(Room(jobId), jobId, FinalStatus(g), GenerationData(t, g)),
                          FinalResult(Room(jobId), jobId, FinalStatus(g),
                                      if ReportsError(g) then None else Some(Results(t, g.obj)),
                                      if ReportsError(g) then ErrorField(g) else None)]
  {
    var s := Announced(jobs, jobId, t, now);
    var s3 := ApplyUpdate(s.jobs, jobId, FinalStatus(g), GenerationData(t, g), None, now);
    Step(s3.jobs, s.emitted + s3.emitted)
  }

  /** A poll that ends the job with `status` and the error message `msg`; the timer is cleared. */
  function PollFailed(jobs: map<string, Job>, jobId: string, status: string, msg: string, now: nat): (r: Step)
    requires jobId in jobs && IsTerminal(status)
    ensures r.jobs == jobs[jobId := jobs[jobId].(status := status, lastUpdated := Some(now), pollTimer := None)]
    ensures r.emitted == [StatusUpdate(Room(jobId), jobId, status, ErrorData(msg)),
                          FinalResult(Room(jobId), jobId, status, None, Some(msg))]
  {
    ApplyUpdate(jobs, jobId, status, ErrorData(msg), None, now)
  }

  /** A poll that finds transcription still running: record the status and re-arm the five-second
      timer. */
  function StillTranscribing(jobs: map<string, Job>, jobId: string, status: string, now: nat): (r: Step)
    requires jobId in jobs && !IsTerminal(status)
    ensures r.jobs == jobs[jobId := jobs[jobId].(status := status, lastUpdated := Some(now), pollTimer := Some(5000))]
    ensures r.emitted == [StatusUpdate(Room(jobId), jobId, status, NoData)]
  {
    var s := ApplyUpdate(jobs, jobId, status, NoData, None, now);
    Step(s.jobs[jobId := s.jobs[jobId].(pollTimer := Some(5000))], s.emitted)
  }

  /** One poll of `jobId`, given the service's reply and the generation outcome. */
  function PollStep(jobs: map<string, Job>, jobId: string, reply: PollReply, groq: GroqReply,
                    parse: string -> JsonParse, now: nat): (r: Step)
    ensures !Pollable(jobs, jobId) ==> r == Step(jobs, [])
    ensures Pollable(jobs, jobId) && reply.PollThrew? ==>
      var msg := OrDefault(reply.message, "Polling failed");
      && r.jobs == jobs[jobId := jobs[jobId].(status := "error_polling", lastUpdated := Some(now), pollTimer := None)]
      && r.emitted == [StatusUpdate(Room(jobId), jobId, "error_polling", ErrorData(msg)),
                       FinalResult(Room(jobId), jobId, "error_polling", None, Some(msg))]
    ensures Pollable(jobs, jobId) && reply.Replied? && reply.data.status == "error" ==>
      var msg := OrDefault(reply.data.error, "AssemblyAI transcription failed");
      && r.jobs == jobs[jobId := jobs[jobId].(status := "error_transcription", lastUpdated := Some(now), pollTimer := None)]
      && r.emitted == [StatusUpdate(Room(jobId), jobId, "error_transcription", ErrorData(msg)),
                       FinalResult(Room(jobId), jobId, "error_transcription", None, Some(msg))]
    ensures Pollable(jobs, jobId) && IsPending(reply) ==>
      var status := "transcribing_" + reply.data.status;
      && r.jobs == jobs[jobId := jobs[jobId].(status := status, lastUpdated := Some(now), pollTimer := Some(5000))]
      && r.emitted == [StatusUpdate(Room(jobId), jobId, status, NoData)]
  {
    StatusKinds(if reply.Replied? then reply.data.status else "");
    if !Pollable(jobs, jobId) then Step(jobs, [])
    else match reply
      case PollThrew(m) => PollFailed(jobs, jobId, "error_polling", OrDefault(m, "Polling failed"), now)
      case Replied(t) =>
        if t.status == "completed" then CompletedStep(jobs, jobId, t, Generate(t, groq, parse), now)
        else if t.status == "error" then
          PollFailed(jobs, jobId, "error_transcription", OrDefault(t.error, "AssemblyAI transcription failed"), now)
        else StillTranscribing(jobs, jobId, "transcribing_" + t.status, now)
  }

  /** A `completed` reply on a pollable job runs the completed branch with the outcome of generation
      on that transcript. */
  lemma PollCompletes(jobs: map<string, Job>, jobId: string, t: Transcript, groq: GroqReply,
                      parse: string -> JsonParse, now: nat)
    requires Pollable(jobs, jobId) && t.status == "completed"
    ensures PollStep(jobs, jobId, Replied(t), groq, parse, now) == CompletedStep(jobs, jobId, t, Generate(t, groq, parse), now)
  {
  }

  /** A poll keeps the registered ids and the polled job's identity, touches no other job, and the
      events it emits address only the polled job's room. */
  lemma PollStepFrame(jobs: map<string, Job>, jobId: string, reply: PollReply, groq: GroqReply,
                      parse: string -> JsonParse, now: nat)
    ensures var r := PollStep(jobs, jobId, reply, groq, parse, now);
      && r.jobs.Keys == jobs.Keys
      && (jobId in jobs ==> SameIdentity(jobs[jobId], r.jobs[jobId]))
      && (forall id :: id in jobs && id != jobId ==> r.jobs[id] == jobs[id])
      && (forall i :: 0 <= i < |r.emitted| ==> Scoped(r.emitted[i], jobs.Keys))
  {
    var r := PollStep(jobs, jobId, reply, groq, parse, now);
    if !Pollable(jobs, jobId) {
    } else if reply.PollThrew? {
      OneJobStep(jobs, jobId, jobs[jobId].(status := "error_polling", lastUpdated := Some(now), pollTimer := None), r);
    } else if reply.data.status == "completed" {
      PollCompletes(jobs, jobId, reply.data, groq, parse, now);
      OneJobStep(jobs, jobId, r.jobs[jobId], r);
    } else if reply.data.status == "error" {
      OneJobStep(jobs, jobId, jobs[jobId].(status := "error_transcription", lastUpdated := Some(now), pollTimer := None), r);
    } else {
      OneJobStep(jobs, jobId, jobs[jobId].(status := "transcribing_" + reply.data.status, lastUpdated := Some(now),
                                           pollTimer := Some(5000)), r);
    }
  }

  /** A step that replaces only `jobId`'s record, keeping its identity, and addresses only its room. */
  lemma OneJobStep(jobs: map<string, Job>, jobId: string, job: Job, r: Step)
    requires jobId in jobs && r.jobs == jobs[jobId := job] && SameIdentity(jobs[jobId], job)
    requires forall i :: 0 <= i < |r.emitted| ==> Scoped(r.emitted[i], {jobId})
    ensures r.jobs.Keys == jobs.Keys && SameIdentity(jobs[jobId], r.jobs[jobId])
    ensures forall id :: id in jobs && id != jobId ==> r.jobs[id] == jobs[id]
    ensures forall i :: 0 <= i < |r.emitted| ==> Scoped(r.emitted[i], jobs.Keys)
  {
    forall i | 0 <= i < |r.emitted|
      ensures Scoped(r.emitted[i], jobs.Keys)
    {
      ScopedGrows(r.emitted[i], {jobId}, jobs.Keys);
    }
  }

  /** A poll never leaves an armed timer on a terminal job, and only arms the five-second delay. */
  lemma PollKeepsTimersConsistent(jobs: map<string, Job>, jobId: string, reply: PollReply, groq: GroqReply,
                                  parse: string -> JsonParse, now: nat)
    ensures var r := PollStep(jobs, jobId, reply, groq, parse, now);
      forall id :: id in jobs && TimerConsistent(jobs[id]) ==> TimerConsistent(r.jobs[id])
  {
    StatusKinds(if reply.Replied? then reply.data.status else "");
    PollStepFrame(jobs, jobId, reply, groq, parse, now);
  }

  /** A poll changes no job that is already terminal. */
  lemma PollLeavesTerminalJobs(jobs: map<string, Job>, jobId: string, reply: PollReply, groq: GroqReply,
                               parse: string -> JsonParse, now: nat)
    ensures var r := PollStep(jobs, jobId, reply, groq, parse, now);
      forall id :: id in jobs && IsTerminal(jobs[id].status) ==> r.jobs[id] == jobs[id]
  {
    PollStepFrame(jobs, jobId, reply, groq, parse, now);
  }

  /** Successive timer firings on one job, answered by `replies` in order. */
  function PollChain(jobs: map<string, Job>, jobId: string, replies: seq<PollReply>, groq: GroqReply,
                     parse: string -> JsonParse, now: nat): Step
    decreases |replies|
  {
    if replies == [] then Step(jobs, [])
    else
      var s := PollStep(jobs, jobId, replies[0], groq, parse, now);
      var rest := PollChain(s.jobs, jobId, replies[1..], groq, parse, now);
      Step(rest.jobs, s.emitted + rest.emitted)
  }

  /** However many times a job's timer fires, no other job changes, the registered ids stay the
      same, and every event addresses a registered job's room. */
  lemma {:induction false} ChainFrame(jobs: map<string, Job>, jobId: string, replies: seq<PollReply>, groq: GroqReply,
                                      parse: string -> JsonParse, now: nat)
    ensures var r := PollChain(jobs, jobId, replies, groq, parse, now);
      && r.jobs.Keys == jobs.Keys
      && (forall id :: id in jobs && id != jobId ==> r.jobs[id] == jobs[id])
      && (forall i :: 0 <= i < |r.emitted| ==> Scoped(r.emitted[i], jobs.Keys))
    decreases |replies|
  {
    if replies != [] {
      var s := PollStep(jobs, jobId, replies[0], groq, parse, now);
      PollStepFrame(jobs, jobId, replies[0], groq, parse, now);
      ChainFrame(s.jobs, jobId, replies[1..], groq, parse, now);
      ChainCons(jobs, jobId, replies, groq, parse, now);
      var rest := PollChain(s.jobs, jobId, replies[1..], groq, parse, now);
      var e := s.emitted + rest.emitted;
      forall i | 0 <= i < |e|
        ensures Scoped(e[i], jobs.Keys)
      {
        if i >= |s.emitted| {
          assert e[i] == rest.emitted[i - |s.emitted|];
        }
      }
    }
  }

  /** The intermediate statuses a run of in-progress replies produces. */
  function TranscribingTrail(replies: seq<PollReply>): seq<string>
    requires forall i :: 0 <= i < |replies| ==> IsPending(replies[i])
  {
    if replies == [] then [] else assert IsPending(replies[0]); ["transcribing_" + replies[0].data.status] + TranscribingTrail(replies[1..])
  }

  /** Once a job is terminal, any number of further polls change nothing and emit nothing. */
  lemma {:induction false} TerminalJobIgnoresPolls(jobs: map<string, Job>, jobId: string, replies: seq<PollReply>,
                                                   groq: GroqReply, parse: string -> JsonParse, now: nat)
    requires jobId in jobs && IsTerminal(jobs[jobId].status)
    ensures PollChain(jobs, jobId, replies, groq, parse, now) == Step(jobs, [])
    decreases |replies|
  {
    if replies != [] {
      TerminalJobIgnoresPolls(jobs, jobId, replies[1..], groq, parse, now);
    }
  }

  /** The updates a run of in-progress replies sends to the job's room, one per reply. */
  function PendingEvents(jobId: string, pending: seq<PollReply>): (e: seq<Event>)
    requires forall i :: 0 <= i < |pending| ==> IsPending(pending[i])
    ensures StatusTrail(e) == TranscribingTrail(pending) && FinalCount(e) == 0
  {
    if pending == [] then []
    else
      assert IsPending(pending[0]);
      var u := StatusUpdate(Room(jobId), jobId, "transcribing_" + pending[0].data.status, NoData);
      var rest := PendingEvents(jobId, pending[1..]);
      assert ([u] + rest)[1..] == rest;
      [u] + rest
  }

  /**
   * A service that reports in-progress statuses and then `completed`: the job's room receives
   * exactly one `transcribing_<status>` update per in-progress reply, followed by the four events
   * of the completed branch, and the job ends as a single completed branch would leave it.
   */
  lemma {:induction false} CompletingRun(jobs: map<string, Job>, jobId: string, pending: seq<PollReply>,
                                         t: Transcript, groq: GroqReply, parse: string -> JsonParse, now: nat)
    requires Pollable(jobs, jobId)
    requires forall i :: 0 <= i < |pending| ==> IsPending(pending[i])
    requires t.status == "completed"
    ensures var c := CompletedStep(jobs, jobId, t, Generate(t, groq, parse), now);
      PollChain(jobs, jobId, pending + [Replied(t)], groq, parse, now) == Step(c.jobs, PendingEvents(jobId, pending) + c.emitted)
    decreases |pending|
  {
    var g := Generate(t, groq, parse);
    if pending == [] {
      assert pending + [Replied(t)] == [Replied(t)];
      LastPoll(jobs, jobId, t, groq, parse, now);
    } else {
      var replies := pending + [Replied(t)];
      assert replies[0] == pending[0] && replies[1..] == pending[1..] + [Replied(t)];
      var next := PendingChain(jobs, jobId, replies, groq, parse, now);
      CompletingRun(next, jobId, pending[1..], t, groq, parse, now);
      var u := StatusUpdate(Room(jobId), jobId, "transcribing_" + pending[0].data.status, NoData);
      var c := CompletedStep(jobs, jobId, t, g, now);
      CompletedOverwrites(jobs, jobId, "transcribing_" + pending[0].data.status, Some(5000), t, g, now);
      var rest := PollChain(next, jobId, replies[1..], groq, parse, now);
      assert rest == Step(c.jobs, PendingEvents(jobId, pending[1..]) + c.emitted);
      assert PendingEvents(jobId, pending) == [u] + PendingEvents(jobId, pending[1..]);
      SeqAssoc([u], PendingEvents(jobId, pending[1..]), c.emitted);
    }
  }

  /** A run of one `completed` reply is the completed branch. */
  lemma LastPoll(jobs: map<string, Job>, jobId: string, t: Transcript, groq: GroqReply,
                 parse: string -> JsonParse, now: nat)
    requires Pollable(jobs, jobId) && t.status == "completed"
    ensures PollChain(jobs, jobId, [Replied(t)], groq, parse, now) == CompletedStep(jobs, jobId, t, Generate(t, groq, parse), now)
  {
    var s := PollStep(jobs, jobId, Replied(t), groq, parse, now);
    PollCompletes(jobs, jobId, t, groq, parse, now);
    assert [Replied(t)][1..] == [];
    assert PollChain(jobs, jobId, [Replied(t)], groq, parse, now) == Step(s.jobs, s.emitted + []);
    assert s.emitted + [] == s.emitted;
  }

  /** The completed branch overwrites every field an in-progress poll sets, so it ends the same way
      after one. */
  lemma CompletedOverwrites(jobs: map<string, Job>, jobId: string, status: string, timer: Option<nat>,
                            t: Transcript, g: GenerationResult, now: nat)
    requires jobId in jobs && (g.Failure? ==> g.error != "")
    ensures var next := jobs[jobId := jobs[jobId].(status := status, lastUpdated := Some(now), pollTimer := timer)];
      CompletedStep(next, jobId, t, g, now) == CompletedStep(jobs, jobId, t, g, now)
  {
    var next := jobs[jobId := jobs[jobId].(status := status, lastUpdated := Some(now), pollTimer := timer)];
    var a := jobs[jobId].(status := FinalStatus(g), lastUpdated := Some(now), transcriptData := Some(t), pollTimer := None);
    assert next[jobId].(status := FinalStatus(g), lastUpdated := Some(now), transcriptData := Some(t), pollTimer := None) == a;
    assert next[jobId := a] == jobs[jobId := a];
  }

  /** The same run as status trails: one `transcribing_<status>` per in-progress reply, then
      `transcription_completed`, `generating_outputs` and the terminal status, and exactly one final
      result, at the end. */
  lemma PollsToCompletion(jobs: map<string, Job>, jobId: string, pending: seq<PollReply>,
                          t: Transcript, groq: GroqReply, parse: string -> JsonParse, now: nat)
    requires Pollable(jobs, jobId)
    requires forall i :: 0 <= i < |pending| ==> IsPending(pending[i])
    requires t.status == "completed"
    ensures var r := PollChain(jobs, jobId, pending + [Replied(t)], groq, parse, now);
      && StatusTrail(r.emitted) == TranscribingTrail(pending) + ["transcription_completed", "generating_outputs", FinalStatus(Generate(t, groq, parse))]
      && FinalCount(r.emitted) == 1
      && r.emitted[|r.emitted| - 1].FinalResult?
  {
    CompletingRun(jobs, jobId, pending, t, groq, parse, now);
    var a := PendingEvents(jobId, pending);
    var c := CompletedStep(jobs, jobId, t, Generate(t, groq, parse), now).emitted;
    CompletedTrail(c);
    TrailAppend(a, c);
    assert (a + c)[|a + c| - 1] == c[3];
  }

  /** The same run leaves the job terminal, with the transcript stored and no timer armed. */
  lemma PollsToCompletionState(jobs: map<string, Job>, jobId: string, pending: seq<PollReply>,
                               t: Transcript, groq: GroqReply, parse: string -> JsonParse, now: nat)
    requires Pollable(jobs, jobId)
    requires forall i :: 0 <= i < |pending| ==> IsPending(pending[i])
    requires t.status == "completed"
    ensures var r := PollChain(jobs, jobId, pending + [Replied(t)], groq, parse, now);
      && r.jobs.Keys == jobs.Keys
      && r.jobs[jobId].status == FinalStatus(Generate(t, groq, parse))
      && IsTerminal(r.jobs[jobId].status)
      && r.jobs[jobId].transcriptData == Some(t)
      && r.jobs[jobId].pollTimer == None
      && SameIdentity(jobs[jobId], r.jobs[jobId])
      && (forall id :: id in jobs && id != jobId ==> r.jobs[id] == jobs[id])
  {
    CompletingRun(jobs, jobId, pending, t, groq, parse, now);
  }

  /** One unfolding of a run of polls. */
  lemma ChainCons(jobs: map<string, Job>, jobId: string, replies: seq<PollReply>, groq: GroqReply,
                  parse: string -> JsonParse, now: nat)
    requires replies != []
    ensures var s := PollStep(jobs, jobId, replies[0], groq, parse, now);
            var rest := PollChain(s.jobs, jobId, replies[1..], groq, parse, now);
            PollChain(jobs, jobId, replies, groq, parse, now) == Step(rest.jobs, s.emitted + rest.emitted)
  {
  }

  /** A run that starts with an in-progress reply: one `transcribing_<status>` update, then the rest
      of the run from the updated map `next`, on which the job is still pollable. */
  lemma PendingChain(jobs: map<string, Job>, jobId: string, replies: seq<PollReply>, groq: GroqReply,
                     parse: string -> JsonParse, now: nat)
    returns (next: map<string, Job>)
    requires replies != [] && Pollable(jobs, jobId) && IsPending(replies[0])
    ensures var status := "transcribing_" + replies[0].data.status;
      && next == jobs[jobId := jobs[jobId].(status := status, lastUpdated := Some(now), pollTimer := Some(5000))]
      && Pollable(next, jobId)
      && var rest := PollChain(next, jobId, replies[1..], groq, parse, now);
         PollChain(jobs, jobId, replies, groq, parse, now)
           == Step(rest.jobs, [StatusUpdate(Room(jobId), jobId, status, NoData)] + rest.emitted)
  {
    var status := "transcribing_" + replies[0].data.status;
    next := jobs[jobId := jobs[jobId].(status := status, lastUpdated := Some(now), pollTimer := Some(5000))];
    StatusKinds(replies[0].data.status);
    ChainCons(jobs, jobId, replies, groq, parse, now);
  }

  /** The trail of the four events of the completed branch. */
  lemma CompletedTrail(e: seq<Event>)
    requires |e| == 4 && e[0].StatusUpdate? && e[1].StatusUpdate? && e[2].StatusUpdate? && e[3].FinalResult?
    ensures StatusTrail(e) == [e[0].status, e[1].status, e[2].status] && FinalCount(e) == 1
  {
    var e3 := e[3..];
    assert e3[1..] == [];
    assert StatusTrail(e3) == [] && FinalCount(e3) == 1;
    var e2 := e[2..];
    assert e2[1..] == e3;
    assert StatusTrail(e2) == [e[2].status] && FinalCount(e2) == 1;
    var e1 := e[1..];
    assert e1[1..] == e2;
    assert StatusTrail(e1) == [e[1].status, e[2].status] && FinalCount(e1) == 1;
    assert e[1..] == e1;
  }
}

=== FILE: server.dfy ===
/**
 * The server's mutable state: the in-memory job store, the socket-room memberships and the log of
 * events it has emitted, with the handlers that change them. Each handler is proved to have
 * exactly the effect of the corresponding step function.
 */
module Server {
  import opened Common
  import opened Transcripts
  import opened Generation
  import opened Jobs
  import opened Polling
  import opened Handlers

  /** Socket `socketId` has joined the room named `room`. */
  datatype Membership = Membership(socketId: string, room: string)

  /** The job id dev-mode updates pass: JavaScript's `null` used as a property key. */
  const DevKey := "null"

  /** The server's invariant over its three pieces of state (see `JobServer.Valid`). */
  ghost predicate Consistent(jobs: map<string, Job>, rooms: set<Membership>, events: seq<Event>)
  {
    && (forall id :: id in jobs ==> IsGeneratedId(id) && TimerConsistent(jobs[id]))
    && (forall m :: m in rooms ==> m.room in jobs)
    && (forall i :: 0 <= i < |events| ==> Scoped(events[i], jobs.Keys))
  }

  /** Replacing a registered job by one whose timer is consistent keeps the invariant. */
  lemma ReplaceJob(jobs: map<string, Job>, rooms: set<Membership>, events: seq<Event>, id: string, job: Job)
    requires Consistent(jobs, rooms, events) && id in jobs && TimerConsistent(job)
    ensures Consistent(jobs[id := job], rooms, events)
  {
    assert jobs[id := job].Keys == jobs.Keys;
  }

  class JobServer {
    /** The job store, keyed by job id. */
    var jobs: map<string, Job>
    /** The rooms sockets have joined. */
    var rooms: set<Membership>
    /** Every event emitted so far, in order. */
    ghost var events: seq<Event>

    /**
     * The store holds only generated ids; no terminal job keeps an armed timer; every joined room and
     * every room-addressed event belongs to a registered job.
     */
    ghost predicate Valid()
      reads this
    {
      Consistent(jobs, rooms, events)
    }

    constructor ()
      ensures Valid()
      ensures jobs == map[] && rooms == {} && events == []
    {
      jobs := map[];
      rooms := {};
      events := [];
    }

    /** `updateJobStatus`. */
    method UpdateJobStatus(jobId: string, status: string, data: UpdateData, socket: Option<string>, now: nat)
      requires Valid()
      modifies this
      ensures Valid()
      ensures var r := ApplyUpdate(old(jobs), jobId, status, data, socket, now);
        jobs == r.jobs && events == old(events) + r.emitted
      ensures rooms == old(rooms)
    {
      if jobId in jobs {
        var job := jobs[jobId].(status := status, lastUpdated := Some(now));
        events := events + [StatusUpdate(Room(jobId), jobId, status, data)];
        if IsTerminal(status) {
          events := events + [FinalResult(Room(jobId), jobId, status, data.results, data.error)];
          if job.pollTimer.Some? {
            job := job.(pollTimer := None);
          }
        }
        jobs := jobs[jobId := job];
      } else if socket.Some? {
        events := events + [DirectEvent(socket.value, status, data)];
      }
      UpdateFrame(old(jobs), jobId, status, data, socket, now);
    }

    /** `pollAssemblyAIStatus` for `jobId`, answered by `reply`. Whether the transcript side file
        was written (`saved`) has no effect on the job. */
    method Poll(jobId: string, reply: PollReply, saved: bool, groq: GroqReply, parse: string -> JsonParse, now: nat)
      requires Valid()
      modifies this
      ensures Valid()
      ensures var r := PollStep(old(jobs), jobId, reply, groq, parse, now);
        jobs == r.jobs && events == old(events) + r.emitted
      ensures rooms == old(rooms)
    {
      if jobId !in jobs || IsTerminal(jobs[jobId].status) {
        return;
      }
      match reply {
        case PollThrew(m) =>
          UpdateJobStatus(jobId, "error_polling", ErrorData(OrDefault(m, "Polling failed")), None, now);
        case Replied(t) =>
          if t.status == "completed" {
            CompleteTranscription(jobId, t, groq, parse, now);
          } else if t.status == "error" {
            UpdateJobStatus(jobId, "error_transcription",
                            ErrorData(OrDefault(t.error, "AssemblyAI transcription failed")), None, now);
          } else {
            KeepPolling(jobId, t.status, now);
          }
      }
    }

    /** A reply still in progress: record the service's status and re-arm the timer at 5 s. */
    method KeepPolling(jobId: string, status: string, now: nat)
      requires Valid() && jobId in jobs
      modifies this
      ensures Valid()
      ensures var s := ApplyUpdate(old(jobs), jobId, "transcribing_" + status, NoData, None, now);
        jobs == s.jobs[jobId := s.jobs[jobId].(pollTimer := Some(5000))] && events == old(events) + s.emitted
      ensures rooms == old(rooms)
    {
      StatusKinds(status);
      UpdateJobStatus(jobId, "transcribing_" + status, NoData, None, now);
      ReplaceJob(jobs, rooms, events, jobId, jobs[jobId].(pollTimer := Some(5000)));
      jobs := jobs[jobId := jobs[jobId].(pollTimer := Some(5000))];
    }

    /** The completed branch of a poll: store the transcript, generate the note, finish the job. */
    method CompleteTranscription(jobId: string, t: Transcript, groq: GroqReply, parse: string -> JsonParse, now: nat)
      requires Valid() && jobId in jobs
      modifies this
      ensures Valid()
      ensures var r := CompletedStep(old(jobs), jobId, t, Generate(t, groq, parse), now);
        jobs == r.jobs && events == old(events) + r.emitted
      ensures rooms == old(rooms)
    {
      ghost var e0 := events;
      AnnounceGeneration(jobId, t, now);
      ghost var s := Announced(old(jobs), jobId, t, now);
      var note, _ := GenerateSoapNote(t, groq, parse);
      FinishJob(jobId, t, note, now);
      ghost var s3 := ApplyUpdate(s.jobs, jobId, FinalStatus(note), GenerationData(t, note), None, now);
      assert events == e0 + s.emitted + s3.emitted;
      SeqAssoc(e0, s.emitted, s3.emitted);
    }

    /** Store the transcript on the record and tell the room that generation is starting. */
    method AnnounceGeneration(jobId: string, t: Transcript, now: nat)
      requires Valid() && jobId in jobs
      modifies this
      ensures Valid()
      ensures var r := Announced(old(jobs), jobId, t, now);
        jobs == r.jobs && events == old(events) + r.emitted
      ensures rooms == old(rooms)
    {
      ghost var e0 := events;
      var stored := jobs[jobId := jobs[jobId].(transcriptData := Some(t))];
      assert stored.Keys == jobs.Keys;
      jobs := stored;
      UpdateJobStatus(jobId, "transcription_completed", MessageData(CompletedMessage), None, now);
      ghost var s1 := ApplyUpdate(stored, jobId, "transcription_completed", MessageData(CompletedMessage), None, now);
      UpdateJobStatus(jobId, "generating_outputs", MessageData(CallingMessage), None, now);
      ghost var s2 := ApplyUpdate(s1.jobs, jobId, "generating_outputs", MessageData(CallingMessage), None, now);
      SeqAssoc(e0, s1.emitted, s2.emitted);
    }

    /** The terminal update after generation: `error_generation` when the result carries an error,
        otherwise `completed` with the transcript and the note. */
    method FinishJob(jobId: string, t: Transcript, note: GenerationResult, now: nat)
      requires Valid() && (note.Failure? ==> note.error != "")
      modifies this
      ensures Valid()
      ensures var r := ApplyUpdate(old(jobs), jobId, FinalStatus(note), GenerationData(t, note), None, now);
        jobs == r.jobs && events == old(events) + r.emitted
      ensures rooms == old(rooms)
    {
      if ReportsError(note) {
        UpdateJobStatus(jobId, "error_generation", UpdateData(None, ErrorField(note), DetailsField(note), None),
                        None, now);
      } else {
        UpdateJobStatus(jobId, "completed", UpdateData(None, None, None, Some(Results(t, note.obj))), None, now);
      }
    }

    /** `POST /upload` under the fresh id `jobId`; `reply` is the HTTP response, if one is sent. */
    method Upload(jobId: string, file: Option<AudioFile>, outcome: SubmitOutcome, now: nat)
      returns (reply: Option<HttpReply>)
      requires Valid() && IsGeneratedId(jobId) && jobId !in jobs
      modifies this
      ensures Valid()
      ensures var u := UploadStep(old(jobs), jobId, file, outcome, now);
        jobs == u.step.jobs && events == old(events) + u.step.emitted && reply == u.reply
      ensures rooms == old(rooms)
    {
      if file.None? {
        return None;
      }
      reply := AcceptUpload(jobId, file.value, outcome, now);
    }

    /** The upload route once the request carries a file. */
    method AcceptUpload(jobId: string, file: AudioFile, outcome: SubmitOutcome, now: nat)
      returns (reply: Option<HttpReply>)
      requires Valid() && IsGeneratedId(jobId) && jobId !in jobs
      modifies this
      ensures Valid()
      ensures var u := AcceptedUpload(old(jobs), jobId, file, outcome, now);
        jobs == u.step.jobs && events == old(events) + u.step.emitted && reply == u.reply
      ensures rooms == old(rooms)
    {
      if file.buffer.None? {
        reply := RejectEmptyUpload(jobId, file.originalName, now);
        return;
      }
      ghost var e0 := events;
      ghost var started := StartedUpload(jobs, jobId, file.originalName, now);
      StartUpload(jobId, file.originalName, now);
      reply := SubmitAudio(jobId, outcome, now);
      SeqAssoc(e0, started.emitted, SubmitPhase(started.jobs, jobId, outcome, now).step.emitted);
    }

    /** A file without a buffer: the new record fails with `error_upload` and the client gets a 400. */
    method RejectEmptyUpload(jobId: string, name: string, now: nat) returns (reply: Option<HttpReply>)
      requires Valid() && IsGeneratedId(jobId) && jobId !in jobs
      modifies this
      ensures Valid()
      ensures var u := EmptyUpload(old(jobs), jobId, name, now);
        jobs == u.step.jobs && events == old(events) + u.step.emitted && reply == u.reply
      ensures rooms == old(rooms)
    {
      CreateJob(jobId, SourceLabel(name), now);
      assert "error_upload"[..5] == "error";
      UpdateJobStatus(jobId, "error_upload", ErrorData(EmptyBufferMessage), None, now);
      reply := Some(HttpReply(400, jobId, Some(EmptyBufferMessage)));
    }

    /** Creates the record and announces `uploading_assemblyai`. */
    method StartUpload(jobId: string, name: string, now: nat)
      requires Valid() && IsGeneratedId(jobId) && jobId !in jobs
      modifies this
      ensures Valid()
      ensures var s := StartedUpload(old(jobs), jobId, name, now);
        jobs == s.jobs && events == old(events) + s.emitted
      ensures rooms == old(rooms)
    {
      CreateJob(jobId, SourceLabel(name), now);
      assert "uploading_assemblyai"[0] == 'u';
      UpdateJobStatus(jobId, "uploading_assemblyai", NoData, None, now);
    }

    /** The upload route from `uploading_assemblyai` on: the two requests to the transcription service. */
    method SubmitAudio(jobId: string, outcome: SubmitOutcome, now: nat) returns (reply: Option<HttpReply>)
      requires Valid() && jobId in jobs
      modifies this
      ensures Valid()
      ensures var u := SubmitPhase(old(jobs), jobId, outcome, now);
        jobs == u.step.jobs && events == old(events) + u.step.emitted && reply == u.reply
      ensures rooms == old(rooms)
    {
      StatusKinds("");
      match outcome {
        case UploadRejected(e) =>
          UpdateJobStatus(jobId, "error_assemblyai", ErrorData(AssemblyErrorMessage(e)), None, now);
          reply := None;
        case SubmitRejected(e) =>
          RejectSubmission(jobId, e, now);
          reply := None;
        case Submitted(tid) =>
          reply := AcceptSubmission(jobId, tid, now);
      }
    }

    /** The transcription request threw after the audio was uploaded. */
    method RejectSubmission(jobId: string, e: ServiceError, now: nat)
      requires Valid() && jobId in jobs
      modifies this
      ensures Valid()
      ensures var s := RejectedSubmission(old(jobs), jobId, e, now);
        jobs == s.jobs && events == old(events) + s.emitted
      ensures rooms == old(rooms)
    {
      ghost var j0, e0 := jobs, events;
      SubmitTranscription(jobId, now);
      ghost var s := Submission(j0, jobId, now);
      assert "error_assemblyai"[..5] == "error";
      var data := ErrorData(AssemblyErrorMessage(e));
      UpdateJobStatus(jobId, "error_assemblyai", data, None, now);
      SeqAssoc(e0, s.emitted, RoomEvents(jobId, "error_assemblyai", data));
    }

    /** Both requests succeeded: store the transcript id, announce the queued job, reply 202 and
        arm the first poll. */
    method AcceptSubmission(jobId: string, tid: string, now: nat) returns (reply: Option<HttpReply>)
      requires Valid() && jobId in jobs
      modifies this
      ensures Valid()
      ensures var u := AcceptedSubmission(old(jobs), jobId, tid, now);
        jobs == u.step.jobs && events == old(events) + u.step.emitted && reply == u.reply
      ensures rooms == old(rooms)
    {
      ghost var j0, e0 := jobs, events;
      SubmitTranscription(jobId, now);
      ghost var s := Submission(j0, jobId, now);
      reply := QueueJob(jobId, tid, now);
      SeqAssoc(e0, s.emitted, Queued(s.jobs, jobId, tid, now).step.emitted);
    }

    /** Stores the transcript id, announces `transcribing_queued`, replies 202 and arms the first poll. */
    method QueueJob(jobId: string, tid: string, now: nat) returns (reply: Option<HttpReply>)
      requires Valid() && jobId in jobs
      modifies this
      ensures Valid()
      ensures var u := Queued(old(jobs), jobId, tid, now);
        jobs == u.step.jobs && events == old(events) + u.step.emitted && reply == u.reply
      ensures rooms == old(rooms)
    {
      var withId := jobs[jobId := jobs[jobId].(transcriptId := Some(tid))];
      ReplaceJob(jobs, rooms, events, jobId, withId[jobId]);
      jobs := withId;
      assert "transcribing_queued"[0] == 't';
      UpdateJobStatus(jobId, "transcribing_queued", NoData, None, now);
      reply := Some(HttpReply(202, jobId, None));
      ReplaceJob(jobs, rooms, events, jobId, jobs[jobId].(pollTimer := Some(1000)));
      jobs := jobs[jobId := jobs[jobId].(pollTimer := Some(1000))];
    }

    /** Registers the new record `{ status: 'received', source, createdAt }` under `jobId`. */
    method CreateJob(jobId: string, source: string, now: nat)
      requires Valid() && IsGeneratedId(jobId) && jobId !in jobs
      modifies this
      ensures Valid()
      ensures jobs == old(jobs)[jobId := NewJob(source, now)]
      ensures events == old(events) && rooms == old(rooms)
    {
      ghost var j0 := jobs;
      jobs := jobs[jobId := NewJob(source, now)];
      forall i | 0 <= i < |events|
        ensures Scoped(events[i], jobs.Keys)
      {
        ScopedGrows(events[i], j0.Keys, jobs.Keys);
      }
      StatusKinds("");
    }

    /** `uploaded_assemblyai` then `submitting_transcription`. */
    method SubmitTranscription(jobId: string, now: nat)
      requires Valid() && jobId in jobs
      modifies this
      ensures Valid()
      ensures var s := Submission(old(jobs), jobId, now);
        jobs == s.jobs && events == old(events) + s.emitted
      ensures rooms == old(rooms)
    {
      ghost var e0 := events;
      StatusKinds("");
      assert "uploaded_assemblyai"[0] == 'u' && "submitting_transcription"[0] == 's';
      UpdateJobStatus(jobId, "uploaded_assemblyai", NoData, None, now);
      UpdateJobStatus(jobId, "submitting_transcription", NoData, None, now);
      SeqAssoc(e0, RoomEvents(jobId, "uploaded_assemblyai", NoData), RoomEvents(jobId, "submitting_transcription", NoData));
    }

    /** The `joinJobRoom` socket event: a known job's room is joined and its status echoed to the
        socket; an unknown id gets an `error` status and joins nothing. */
    method JoinJobRoom(socketId: string, jobId: string)
      requires Valid()
      modifies this
      ensures Valid()
      ensures jobs == old(jobs)
      ensures jobId in jobs ==>
        && rooms == old(rooms) + {Membership(socketId, jobId)}
        && events == old(events) + [StatusUpdate(Socket(socketId), jobId, jobs[jobId].status, NoData)]
      ensures jobId !in jobs ==>
        && rooms == old(rooms)
        && events == old(events) + [StatusUpdate(Socket(socketId), jobId, "error", ErrorData("Invalid Job ID"))]
    {
      if jobId in jobs {
        rooms := rooms + {Membership(socketId, jobId)};
        events := events + [StatusUpdate(Socket(socketId), jobId, jobs[jobId].status, NoData)];
      } else {
        events := events + [StatusUpdate(Socket(socketId), jobId, "error", ErrorData("Invalid Job ID"))];
      }
    }

    /** The `devGenerateRequest` socket event: every update goes through `updateJobStatus` with the
        id `null`, which names no job, so each one is sent straight to the requesting socket. */
    method DevGenerateRequest(socketId: string, read: ReadOutcome, groq: GroqReply, parse: string -> JsonParse, now: nat)
      requires Valid()
      modifies this
      ensures Valid()
      ensures jobs == old(jobs) && rooms == old(rooms)
      ensures events == old(events) + DevRun(socketId, read, groq, parse)
    {
      ghost var e0 := events;
      EmitDirect(socketId, "dev_reading_file", MessageData(ReadingMessage), now);
      DevProcess(socketId, read, groq, parse, now);
      SeqAssoc(e0, [DirectEvent(socketId, "dev_reading_file", MessageData(ReadingMessage))],
               DevAfterRead(socketId, read, groq, parse));
    }

    /** Dev mode after the read: parse the content, generate the note and report to the socket. */
    method DevProcess(socketId: string, read: ReadOutcome, groq: GroqReply, parse: string -> JsonParse, now: nat)
      requires Valid()
      modifies this
      ensures Valid()
      ensures jobs == old(jobs) && rooms == old(rooms)
      ensures events == old(events) + DevAfterRead(socketId, read, groq, parse)
    {
      ghost var e0 := events;
      var parsing := MessageData(ParsingMessage);
      match read {
        case FileMissing =>
          EmitDirect(socketId, "dev_error", ErrorData(NotFoundMessage), now);
        case ReadFailed(m) =>
          EmitDirect(socketId, "dev_error", ErrorData("Error in dev mode: " + m), now);
        case BadJson(m) =>
          EmitDirect(socketId, "dev_parsing_file", parsing, now);
          EmitDirect(socketId, "dev_error", ErrorData("Failed to parse transcript.json: " + m), now);
          assert events == e0 + [DirectEvent(socketId, "dev_parsing_file", parsing),
                                 DirectEvent(socketId, "dev_error", ErrorData("Failed to parse transcript.json: " + m))];
        case Loaded(t) =>
          var generating := MessageData(CallingMessage);
          EmitDirect(socketId, "dev_parsing_file", parsing, now);
          EmitDirect(socketId, "dev_generating_outputs", generating, now);
          DevGenerate(socketId, t, groq, parse, now);
          assert events == e0 + [DirectEvent(socketId, "dev_parsing_file", parsing),
                                 DirectEvent(socketId, "dev_generating_outputs", generating),
                                 DevOutcome(socketId, t, groq, parse)];
      }
    }

    /** Dev mode with a loaded transcript: generate the note and send the result to the socket. */
    method DevGenerate(socketId: string, t: Transcript, groq: GroqReply, parse: string -> JsonParse, now: nat)
      requires Valid()
      modifies this
      ensures Valid()
      ensures jobs == old(jobs) && rooms == old(rooms)
      ensures events == old(events) + [DevOutcome(socketId, t, groq, parse)]
    {
      var note, _ := GenerateSoapNote(t, groq, parse);
      if ReportsError(note) {
        EmitDirect(socketId, "dev_error", UpdateData(None, ErrorField(note), None, None), now);
      } else {
        EmitDirect(socketId, "dev_completed", UpdateData(None, None, None, Some(Results(t, note.obj))), now);
      }
    }

    /** `updateJobStatus(null, status, data, socket)`: no record is touched and the one event goes to the socket. */
    method EmitDirect(socketId: string, status: string, data: UpdateData, now: nat)
      requires Valid()
      modifies this
      ensures Valid()
      ensures jobs == old(jobs) && rooms == old(rooms)
      ensures events == old(events) + [DirectEvent(socketId, status, data)]
    {
      assert DevKey[0] == 'n' && !IsGeneratedId(DevKey);
      UpdateJobStatus(DevKey, status, data, Some(socketId), now);
    }
  }
}

=== FILE: text.dfy ===
/**
 * Character classes and string operations that the note-generation step applies:
 * the speaker-label sanitiser `replace(/[^a-zA-Z0-9\s_]/g, '')`, `String.prototype.trim`,
 * and the decimal rendering of an utterance index inside a template literal.
 */
module Text {

  /** The characters JavaScript's `\s` class matches (WhiteSpace and LineTerminator), which is also
      the set `trim` removes. */
  predicate IsJsSpace(c: char)
  {
    || c == '\t' || c == '\n' || c == '\U{000B}' || c == '\U{000C}' || c == '\r' || c == ' '
    || c == '\U{00A0}' || c == '\U{1680}' || ('\U{2000}' <= c <= '\U{200A}')
    || c == '\U{2028}' || c == '\U{2029}' || c == '\U{202F}' || c == '\U{205F}'
    || c == '\U{3000}' || c == '\U{FEFF}'
  }

  /** The characters the label sanitiser keeps: ASCII letters and digits, `\s` and underscore. */
  predicate IsLabelChar(c: char)
  {
    ('a' <= c <= 'z') || ('A' <= c <= 'Z') || ('0' <= c <= '9') || c == '_' || IsJsSpace(c)
  }

  /** Global replace of every character outside `[a-zA-Z0-9\s_]` by the empty string. */
  function Sanitize(s: string): (r: string)
    ensures |r| <= |s|
    ensures forall i :: 0 <= i < |r| ==> IsLabelChar(r[i])
    ensures (forall i :: 0 <= i < |s| ==> IsLabelChar(s[i])) ==> r == s
  {
    if s == [] then []
    else (if IsLabelChar(s[0]) then [s[0]] else []) + Sanitize(s[1..])
  }

  /** The sanitiser works character by character: it distributes over concatenation, so it keeps the
      allowed characters of each part in their original order. */
  lemma {:induction false} SanitizeAppend(a: string, b: string)
    ensures Sanitize(a + b) == Sanitize(a) + Sanitize(b)
  {
    if a != [] {
      assert (a + b)[0] == a[0];
      assert (a + b)[1..] == a[1..] + b;
      SanitizeAppend(a[1..], b);
    } else {
      assert a + b == b;
    }
  }

  /** A single character is kept exactly when it is allowed and is otherwise removed, not replaced;
      with `SanitizeAppend` this fixes the result on every string. */
  lemma SanitizeChar(c: char)
    ensures Sanitize([c]) == (if IsLabelChar(c) then [c] else [])
  {
    assert [c][1..] == [];
  }

  /** Sanitising a sanitised label changes nothing. */
  lemma SanitizeIdempotent(s: string)
    ensures Sanitize(Sanitize(s)) == Sanitize(s)
  {
  }

  /** Removes trailing `\s` characters. */
  function TrimEnd(s: string): (r: string)
    ensures |r| <= |s| && r == s[..|r|]
    ensures forall i :: |r| <= i < |s| ==> IsJsSpace(s[i])
    ensures r == [] || !IsJsSpace(r[|r| - 1])
  {
    if s != [] && IsJsSpace(s[|s| - 1]) then TrimEnd(s[..|s| - 1]) else s
  }

  /** Every character of `t` is whitespace. */
  predicate AllSpace(t: string)
  {
    forall i :: 0 <= i < |t| ==> IsJsSpace(t[i])
  }

  /** The number of `\s` characters at the start of `s`. */
  function LeadingSpace(s: string): (n: nat)
    ensures n <= |s| && AllSpace(s[..n])
    ensures n == |s| || !IsJsSpace(s[n])
    decreases |s|
  {
    if s != [] && IsJsSpace(s[0]) then
      var n := 1 + LeadingSpace(s[1..]);
      forall i | 0 <= i < n
        ensures IsJsSpace(s[..n][i])
      {
        if i > 0 {
          assert s[..n][i] == s[1..][..n - 1][i - 1];
        }
      }
      n
    else 0
  }

  /** `s.trim()`: the result is empty exactly when `s` is all whitespace; otherwise it neither starts
      nor ends with whitespace, and it is the part of `s` after its leading whitespace, followed
      only by whitespace. */
  function Trim(s: string): (r: string)
    ensures r == [] <==> forall i :: 0 <= i < |s| ==> IsJsSpace(s[i])
    ensures r == [] || (!IsJsSpace(r[0]) && !IsJsSpace(r[|r| - 1]))
    ensures LeadingSpace(s) + |r| <= |s| && r == s[LeadingSpace(s)..LeadingSpace(s) + |r|]
    ensures AllSpace(s[LeadingSpace(s) + |r|..])
  {
    var n := LeadingSpace(s);
    var r := TrimEnd(s[n..]);
    TrimSlice(s, n, s[n..], r);
    r
  }

  /** A whitespace prefix of length `n` that stops before a non-space, followed by `t` with its
      whitespace suffix removed, leaves `r` as a slice of `s` with only whitespace around it. */
  lemma TrimSlice(s: string, n: nat, t: string, r: string)
    requires n <= |s| && AllSpace(s[..n]) && (n == |s| || !IsJsSpace(s[n])) && t == s[n..]
    requires |r| <= |t| && r == t[..|r|] && forall i :: |r| <= i < |t| ==> IsJsSpace(t[i])
    requires r == [] || !IsJsSpace(r[|r| - 1])
    ensures r == [] <==> AllSpace(s)
    ensures r == [] || !IsJsSpace(r[0])
    ensures n + |r| <= |s| && r == s[n..n + |r|]
    ensures AllSpace(s[n + |r|..])
  {
    var tail := s[n + |r|..];
    forall i | 0 <= i < |tail|
      ensures IsJsSpace(tail[i])
    {
      assert tail[i] == t[|r| + i];
    }
    if r == [] {
      assert s[..n] == s;
    } else {
      assert r[0] == s[n];
    }
  }

  /** The decimal digit for `d`. */
  function DigitChar(d: nat): (c: char)
    requires d < 10
  {
    ('0' as int + d) as char
  }

  /** `${n}` for a non-negative integer: its shortest decimal rendering. */
  function DecimalDigits(n: nat): (r: string)
    ensures |r| >= 1
    ensures forall i :: 0 <= i < |r| ==> '0' <= r[i] <= '9'
    ensures |r| > 1 ==> r[0] != '0'
    ensures n < 10 <==> |r| == 1
    decreases n
  {
    if n < 10 then [DigitChar(n)] else DecimalDigits(n / 10) + [DigitChar(n % 10)]
  }

  /** The value of a string of decimal digits. */
  function DecimalValue(s: string): nat
    requires forall i :: 0 <= i < |s| ==> '0' <= s[i] <= '9'
    decreases |s|
  {
    if s == [] then 0 else 10 * DecimalValue(s[..|s| - 1]) + (s[|s| - 1] as int - '0' as int)
  }

  /** Reading the rendered index back gives the index: distinct utterances get distinct numbers. */
  lemma {:induction false} DecimalRoundTrip(n: nat)
    ensures DecimalValue(DecimalDigits(n)) == n
    decreases n
  {
    if n >= 10 {
      DecimalRoundTrip(n / 10);
      var s := DecimalDigits(n / 10);
      var r := s + [DigitChar(n % 10)];
      assert r[..|r| - 1] == s;
    }
  }
}

=== FILE: transcripts.dfy ===
/**
 * The transcript record the transcription service returns, and the flattening of its utterances
 * into the numbered plain text that the note-generation request embeds.
 */
module Transcripts {
  import opened Common
  import opened Text

  /** One speaker turn. `None` (or the empty string) stands for a falsy `speaker` / `text` field. */
  datatype Utterance = Utterance(speaker: Option<string>, text: Option<string>)

  /**
   * A transcript resource. `utterances == None` stands for a transcript whose `utterances` field is
   * missing, falsy or not an array (and for a transcript that is itself null).
   */
  datatype Transcript = Transcript(status: string, error: Option<string>, utterances: Option<seq<Utterance>>)

  /** `String(u.speaker || 'Unknown')` with every character outside `[a-zA-Z0-9\s_]` removed. */
  function SpeakerLabel(u: Utterance): (r: string)
    ensures u.speaker.None? || u.speaker.value == "" ==> r == "Unknown"
    ensures u.speaker.Some? && u.speaker.value != "" ==> r == Sanitize(u.speaker.value)
    ensures forall i :: 0 <= i < |r| ==> IsLabelChar(r[i])
    ensures Sanitize(r) == r
  {
    Sanitize(OrDefault(u.speaker, "Unknown"))
  }

  /** `u.text || ''`. */
  function UtteranceText(u: Utterance): (r: string)
    ensures u.text.Some? ==> r == u.text.value
    ensures u.text.None? ==> r == ""
  {
    OrDefault(u.text, "")
  }

  /** The line for the utterance at index `i`: `[Utterance i] Speaker L: T` and a newline. */
  function NumberedLine(i: nat, u: Utterance): (r: string)
    ensures StartsWith(r, LineHead(i))
    ensures var h := |LineHead(i)|; var l := |SpeakerLabel(u)|;
      |r| == h + l + 2 + |UtteranceText(u)| + 1 &&
      r[h..h + l] == SpeakerLabel(u) && r[h + l..h + l + 2] == ": " && r[h + l + 2..|r| - 1] == UtteranceText(u)
    ensures r[|r| - 1] == '\n'
  {
    var r := LineHead(i) + SpeakerLabel(u) + ": " + UtteranceText(u) + "\n";
    LineParts(LineHead(i), SpeakerLabel(u), UtteranceText(u));
    r
  }

  /** Where the parts of `head + name + ": " + text + "\n"` sit in the line. */
  lemma LineParts(head: string, name: string, text: string)
    ensures var r := head + name + ": " + text + "\n"; var h := |head|; var l := |name|;
      |r| == h + l + 2 + |text| + 1 && StartsWith(r, head) &&
      r[h..h + l] == name && r[h + l..h + l + 2] == ": " && r[h + l + 2..|r| - 1] == text && r[|r| - 1] == '\n'
  {
    var r := head + name + ": " + text + "\n";
    var h := |head|;
    var l := |name|;
    assert r[..h] == head;
    assert r[h..h + l] == name;
    assert r[h + l..h + l + 2] == ": ";
    assert r[h + l + 2..|r| - 1] == text;
  }

  /** The part of the line for the utterance at index `i` before its speaker label. */
  function LineHead(i: nat): (r: string)
    ensures |r| == 21 + |DecimalDigits(i)|
    ensures StartsWith(r, "[Utterance ") && r[|r| - 10..] == "] Speaker "
    ensures r[11..|r| - 10] == DecimalDigits(i)
  {
    var r := "[Utterance " + DecimalDigits(i) + "] Speaker ";
    assert r[..11] == "[Utterance ";
    r
  }

  /** The text accumulated after processing the utterances `us`, in order. */
  function Flatten(us: seq<Utterance>): (r: string)
    ensures r == [] <==> us == []
    decreases |us|
  {
    if us == [] then "" else Flatten(us[..|us| - 1]) + NumberedLine(|us| - 1, us[|us| - 1])
  }

  /** The `forEach` that accumulates `processedText`. */
  method FlattenTranscript(us: seq<Utterance>) returns (text: string)
    ensures text == Flatten(us)
  {
    text := "";
    var i := 0;
    while i < |us|
      invariant 0 <= i <= |us|
      invariant text == Flatten(us[..i])
    {
      assert us[..i + 1][..i] == us[..i];
      text := text + NumberedLine(i, us[i]);
      i := i + 1;
    }
    assert us[..|us|] == us;
  }

  /** The flattened text holds the line of utterance `k` right after the lines of utterances
      `0..k-1`: one line per utterance, in transcript order, numbered by position. */
  lemma {:induction false} FlattenLineAt(us: seq<Utterance>, k: nat)
    requires k < |us|
    ensures Flatten(us[..k]) + NumberedLine(k, us[k]) <= Flatten(us)
    decreases |us|
  {
    var n := |us| - 1;
    var front := us[..n];
    assert Flatten(us) == Flatten(front) + NumberedLine(n, us[n]);
    if k < n {
      FlattenLineAt(front, k);
      assert front[..k] == us[..k] && front[k] == us[k];
      PrefixExtends(Flatten(us[..k]) + NumberedLine(k, us[k]), Flatten(front), NumberedLine(n, us[n]));
    }
  }

  lemma PrefixExtends(a: string, b: string, c: string)
    requires a <= b
    ensures a <= b + c
  {
    assert (b + c)[..|b|] == b;
  }

  /** The flattening of a longer transcript extends that of its prefix (the accumulator only appends). */
  lemma {:induction false} FlattenPrefix(us: seq<Utterance>, k: nat)
    requires k <= |us|
    ensures Flatten(us[..k]) <= Flatten(us)
  {
    if k < |us| {
      FlattenLineAt(us, k);
    } else {
      assert us[..k] == us;
    }
  }
}
